=== FILE: README.md ===
# metazooa analysis, modelled in Dafny

`analyse.py` reads two inputs. The first is an indented ASCII outline of a
phylogenetic classification. The second is the species list of the guessing
game, where each record pairs a display label with the scientific name of a
node in the outline.

The script first rebuilds the tree:
- `calculate_depth` reads one line of the outline;
- `parse_phylo_tree` turns the lines into nodes.

It then binds every species label onto its node, and onto each node above it.
Finally it synthesises a greedy decision tree for the game. When a species is
guessed, the game answers with the scientific name of the lowest common
ancestor of the guess and the hidden species:
- `lca_2nodes` and `lca_species` compute that ancestor;
- `get_successors` splits the remaining candidates by answer;
- `build_decision_tree` picks, among the candidates in sorted order, the first
  whose bucket sizes (sorted largest first) are smallest as a Python list. It
  then recurses into every bucket, in sorted answer order, and returns the
  total number of guesses needed.

The Dafny modules follow that structure:

| module | what it models |
|---|---|
| `Wrappers` | `Option` and `Result` |
| `Ordering` | Python's `<` on lists and on strings, `sorted(set)`, `sorted(list, reverse=True)` |
| `Sums` | sums over finite sets, used to state what the returned count adds up to |
| `Outline` | `calculate_depth`, including `str.strip()` and the marker search |
| `Taxonomy` | `TreeNode` and `parse_phylo_tree` (see below) |
| `Binding` | the loop over the species list that fills `leaves`, `is_species` and `SPECIES` |
| `Lca` | `lca_2nodes` and `lca_species` |
| `Decision` | `get_successors` and `build_decision_tree`: the scan for the best guess and the recursion |
| `Strategy` | what the synthesised tree means as a playing strategy, and what its count is |
| `Guarantees` | when synthesis succeeds, and which guess it picks |
| `Analysis` | the script's top level: parse, bind, then build from the root with every label |

In `Taxonomy`, the tree is a sequence of nodes in creation order. A parent is
the index of an earlier node, and the global `SCIENTIFIC` table is the tree's
`registry`.

`Decision` works against an abstract answer oracle. `Analysis.Answer`
instantiates that oracle with `lca_species`.

Each Python crash is modelled as an explicit `None` or `Failure`:
- an unknown scientific name is a `KeyError`;
- climbing past the root is an `AttributeError` on `None`;
- an empty candidate set fails the `assert`.

## Model

| member | source | states |
|---|---|---|
| Outline.CalculateDepthSpec | analyse.py:51-82 | A line that does not start with a space, `\|`, `+` or `\` is the root: depth 0, named by the whole stripped line. An indented line with no `+-`/`\-` marker yields depth 0 and an empty name. Otherwise the first marker, at column `p`, gives depth `p // 2 + 1` and the stripped text after the marker. |
| Outline.CalculateDepth | analyse.py:51-82 | `calculate_depth` on one line. It has no contract of its own; `Outline.CalculateDepthSpec` states its three cases and `Outline.RenderRoundTrip` its inverse. |
| Outline.FindMarker | analyse.py:65-70 | Finds the first column holding a marker. No earlier column holds one. `None` means no column at all does. |
| Outline.Half | analyse.py:80 | `p // 2` on a column: `2h <= p < 2h + 2`. |
| Outline.StripSpec | analyse.py:76 | `strip()` is empty exactly on all-whitespace text. Otherwise it starts and ends with non-whitespace, and only whitespace was cut from either end. |
| Outline.StripTrimmed | analyse.py:76 | Text with no whitespace at either end is its own strip. |
| Outline.LeadingSpaceSpec | analyse.py:76 | The leading run removed by `strip()` is all whitespace and is maximal. |
| Outline.TrailingSpaceSpec | analyse.py:76 | The trailing run removed by `strip()` is all whitespace and is maximal. |
| Outline.RenderRoundTrip | analyse.py:75-82 | Writing a node as `2(d-1)` columns of spaces and bars, a marker and a trimmed name reads back as depth `d` and that name. |
| Outline.RootRoundTrip | analyse.py:61-63 | A trimmed line that starts with no tree character reads back as depth 0 with its own text. |
| Taxonomy.ParsePhyloTree | analyse.py:98-138 | Blank lines and nameless lines make no node; every other line makes one node, in order, with its depth and name. The first node is the root and has no parent. Every later node hangs under the latest earlier node that is shallower, or under nothing if there is none. The registry keeps the last node of each name. |
| Taxonomy.Attach | analyse.py:112-136 | Creating a node appends exactly one node, with the line's depth and name, and leaves every earlier node unchanged. `Taxonomy.AttachInv` states how its parent is chosen. |
| Taxonomy.Step | analyse.py:103-136 | One iteration of the parsing loop. It has no contract of its own; `Taxonomy.StepInv` states it. |
| Taxonomy.NearestKey | analyse.py:121-128 | The downward search finds the deepest frontier depth at or below `depth - 1`, with none in between; `None` means no frontier depth at or below it. |
| Taxonomy.NewParent | analyse.py:121-128 | The frontier entry chosen as parent is shallower than the new node, and every later node is at least as deep; without an entry, every node is at least as deep. |
| Taxonomy.AttachInv | analyse.py:112-136 | Creating a node keeps the parser invariant. The node is appended with the line's depth and name. The frontier then ends at that depth and holds the node there. |
| Taxonomy.StepInv | analyse.py:103-119 | A blank or nameless line leaves the parser unchanged. Any other line attaches a node with the depth and name `calculate_depth` gives. |
| Taxonomy.RunInv | analyse.py:103-136 | The loop keeps the invariant (root, registry, parents, frontier), and the nodes are the node-making lines in order. |
| Taxonomy.AncestorTransitive | analyse.py:25-28 | Following parent links: an ancestor of an ancestor is an ancestor. |
| Taxonomy.RootAncestorOfAll | analyse.py:25-28 | When every non-root node has a parent, the root is an ancestor of every node. |
| Binding.AddUp | analyse.py:149-151 | The label is added to the leaves of exactly the node and its ancestors; no other node changes. |
| Binding.BindOne | analyse.py:146-151 | The loop body for one record. It has no contract of its own; `Binding.BindStep` states it. |
| Binding.BindAll | analyse.py:142-151 | Binding fails exactly when some record names no node, and reports the first such name. On success: a node's leaves are the labels of records bound at or below it; a node is a species exactly when some record names it; each label maps to the node of its last record. |
| Binding.BindStep | analyse.py:145-151 | One more record keeps the binding invariant, and it fails exactly on an unknown scientific name. |
| Binding.RootLeaves | analyse.py:149-151 | When every node hangs under the root, the root's leaves are exactly the labels of the list. |
| Binding.LeavesAreChildrenUnion | analyse.py:149-151 | A node's leaves are the labels bound at the node itself together with the leaves of its children. |
| Analysis.BoundNodes | analyse.py:142-151 | After binding, every label maps to a node of the tree, and the labels are exactly those of the list. |
| Lca.LiftSpec | analyse.py:154-157 | On a rooted tree, climbing never fails. It reaches the ancestor at the target depth, or the node itself when it is not deeper. Every ancestor at or above that depth is above the result. |
| Lca.LockstepSpec | analyse.py:158-160 | On a rooted tree, from two nodes at equal depth, climbing in lockstep until the names agree stops at their lowest common ancestor. |
| Lca.OutlineRooted | analyse.py:98-138 | An outline whose first node is at depth 0, whose later nodes are each at depth 1 or more and at most one level deeper than the node before, and whose names are all different, parses to a rooted tree: every node but the first hangs exactly one level below its parent. |
| Lca.Lift | analyse.py:154-157 | A depth loop of `lca_2nodes`: a result is an ancestor of the start node, no later than it, and not deeper than the target depth. `Lca.LiftSpec` states when it succeeds. |
| Lca.Lockstep | analyse.py:158-160 | The lockstep loop of `lca_2nodes`: a result is an ancestor of the first node. `Lca.LockstepSpec` states which one. |
| Lca.Lca2 | analyse.py:153-161 | `lca_2nodes`: on any well-formed tree, a result is an ancestor of `a`. `Lca.Lca2Correct` proves it is the lowest common ancestor on a rooted tree. |
| Lca.Lca2Lifts | analyse.py:154-157 | On a rooted tree, the first two loops bring both nodes to the same depth, and lose no common ancestor. |
| Lca.Lca2Correct | analyse.py:153-161 | On a rooted tree `lca_2nodes` never fails. It returns a common ancestor of both nodes that lies below every other common ancestor. |
| Lca.Lca2Symmetric | analyse.py:153-161 | On a rooted tree, `lca_2nodes(a, b)` and `lca_2nodes(b, a)` agree. Elsewhere they can differ. With duplicate names, the lockstep loop compares names and stops on whichever side it started from. With depth jumps, the depth loops can overshoot, and then one argument order climbs past the root and fails while the other succeeds. |
| Lca.Lca2Self | analyse.py:153-161 | The LCA of a node with itself is the node, on any tree: both climbs stop at once and the names agree. |
| Lca.Lca2Root | analyse.py:153-161 | On a rooted tree, the LCA of the root with any node is the root. |
| Lca.Lca2Associative | analyse.py:153-161 | On a rooted tree, folding pairwise LCAs succeeds and gives the same node in either grouping. |
| Lca.LowestCommonUnique | analyse.py:153-161 | On a rooted tree, a set of nodes has at most one lowest common ancestor. |
| Lca.LcaSpecies | analyse.py:163-167 | `lca_species`: a result is a node of the tree. `Lca.LcaSpeciesCorrect` and `Lca.LcaSpeciesUnknown` state when it succeeds and what it returns. |
| Lca.LcaSpeciesCorrect | analyse.py:163-167 | On a rooted tree, `lca_species` succeeds exactly on a non-empty list of known labels. It then returns the lowest common ancestor of all their nodes. |
| Lca.LcaSpeciesUnknown | analyse.py:163-167 | One unknown label anywhere in the list makes `lca_species` fail. |
| Analysis.Outcome | analyse.py:174 | The answer the game gives to a guess. It has no contract of its own; `Analysis.OutcomeIsLca`, `Analysis.OutcomeUnknown` and `Analysis.OutcomeSymmetric` state it. |
| Analysis.OutcomeIsLca | analyse.py:174 | On a rooted tree, the answer to guessing one known species against another is the name of the lowest common ancestor of their nodes. |
| Analysis.OutcomeUnknown | analyse.py:163-167 | An unknown label has no answer, whatever the shape of the tree (the lookup fails before any climb). |
| Analysis.OutcomeSymmetric | analyse.py:174 | On a rooted tree, the answer does not depend on which of the two species was guessed; an unknown label has no answer either way. |
| Analysis.AllAnswerable | analyse.py:169-176 | On a rooted tree, every species can be guessed against every other. |
| Decision.GetSuccessors | analyse.py:169-176 | `get_successors` succeeds exactly when every other candidate gets an answer. |
| Decision.GetSuccessorsSpec | analyse.py:169-176 | Every candidate other than the guess sits in the bucket of its answer. Buckets are non-empty and hold only candidates with that answer. The sizes list has one entry per bucket, largest first, each size as often as there are buckets of that size. The sizes add up to the number of other candidates. |
| Decision.SplitUnion | analyse.py:171-175 | The buckets together hold exactly the candidates other than the guess. |
| Decision.SplitDisjoint | analyse.py:171-175 | No candidate is in two buckets. |
| Decision.SizesProfile | analyse.py:176 | The sorted sizes form the multiset of bucket sizes, in non-increasing order, and sum to the size of the union. |
| Ordering.SortDesc | analyse.py:176 | `sorted(..., reverse=True)`: a non-increasing permutation of its input, with the same sum. |
| Ordering.SortedElems | analyse.py:182 | `sorted(s)`: every element of the set, each once. |
| Ordering.SortedElemsIncreasing | analyse.py:182 | `sorted(s)` lists the elements in strictly increasing string order. |
| Ordering.StrOrder | analyse.py:182 | Python's string `<` is irreflexive, transitive and total. |
| Ordering.LexTransitive | analyse.py:184 | Python's list `<` is transitive. |
| Ordering.LexTotal | analyse.py:184 | Two different lists are ordered one way or the other under list `<`. |
| Ordering.LexAsymmetric | analyse.py:184 | List `<` never holds in both directions. |
| Decision.Scan | analyse.py:182-185 | The candidate loop fails exactly when some remaining candidate cannot be split. A best choice, once found, is kept. The result is always one of the candidates, with its own split. |
| Decision.FirstMinimalStep | analyse.py:184-185 | One strict-`<` comparison keeps track of the first smallest profile seen so far. |
| Decision.ScanPicksFirstMinimal | analyse.py:179-185 | When every profile beats the initial best, the loop ends on the first candidate whose profile is smallest. |
| Guarantees.ProfileBelowSentinel | analyse.py:181 | With at most 10^15 candidates, every profile is below the initial best `[1e15]`. |
| Guarantees.BestChoice | analyse.py:179-186 | On a fully answerable non-empty set of at most 10^15 candidates, the loop picks a candidate. No candidate has a smaller profile, and every candidate sorting before it has a strictly larger one. |
| Guarantees.BuildPicksBest | analyse.py:179-187 | On a fully answerable non-empty set of at most 10^15 candidates, the root guess of the synthesised tree has the smallest profile among all candidates, and ties go to the alphabetically first. |
| Decision.Build | analyse.py:178-191 | The empty candidate set trips the assertion. A synthesised tree is about the given clade, and its guess is a candidate. |
| Decision.Descend | analyse.py:186-191 | The part of `build_decision_tree` after the scan: a result is about the given clade and guesses the chosen candidate. |
| Decision.Branches | analyse.py:188-190 | The recursion over the buckets in sorted answer order: a result has one branch per bucket. |
| Guarantees.BuildSucceeds | analyse.py:178-191 | Synthesis succeeds on every non-empty set of at most 10^15 candidates in which every guess can be answered against every other candidate. |
| Strategy.BuildCorrect | analyse.py:178-191 | Each candidate is guessed at exactly one node of the synthesised tree. Following the answers finds every candidate. The returned number is the sum, over the candidates, of the entry depth plus the guesses needed to find it. |
| Strategy.PlayThroughBranch | analyse.py:187-190 | A candidate in the bucket of answer `k` is found through the branch for `k`, one guess later. |
| Strategy.CostSplit | analyse.py:188-191 | The cost of the buckets' candidates at a node is the sum of the subtrees' costs one level deeper. |
| Strategy.GuessCost | analyse.py:191 | The guessed candidate itself costs the depth plus one. |
| Strategy.NodeFinds | analyse.py:187-190 | If every bucket's candidates are found through that bucket's branch, playing the node finds every candidate. |
| Analysis.Analyse | analyse.py:140-197 | The run fails on an unknown scientific name exactly when some record names no node of the outline, and that failure names such a record. An empty species list fails the synthesis assertion. A success is a tree rooted at the outline's root. |
| Analysis.AnalyseCorrect | analyse.py:140-197 | The run succeeds when four conditions hold: the outline is rooted, every record names a node, the list is not empty, and it holds at most 10^15 records. The labels are then exactly the list's, and the decision tree finds every species. Every species is guessed at exactly one node, and the count is the total number of guesses. |

## Left out

- Printing is left out: `print_tree`, `to_dict`, `__repr__` and the `print` at line 187. The printed line of each node corresponds to the `subject` and `guess` of a `DTree` node.
- File and JSON I/O, `sys.argv` and the dataset name check are left out. The outline is a `seq<string>` of lines, and the game file is a `seq<Species>`.
- The global mutable tables `SCIENTIFIC` and `SPECIES` are values instead: `Tree.registry` and `Bound.species`.
- The `children` list is not stored. The children of a node are the later nodes whose parent it is, in index order, which is the order `add_child` appends them.
- `is_species` is modelled in `Binding`, but nothing downstream reads it. Only `print_tree` uses it.
- The float sentinel `[1000000000000000.0]` is the exact integer 10^15. The float represents that integer exactly, and Python compares it with integer bucket sizes exactly.
- Python's iteration order over `set` in `get_successors` is left out. The result there is built from sets and does not depend on it.
- `Decision.Build` takes the answer function as a parameter (`Oracle`). `Analysis.Answer` instantiates it with `lca_species`.
- Lca.Lca2Correct: proved only on `Rooted` trees, where node 0 is the root at depth 0, every other node is one level below its parent, and names are unique. The source compares scientific names, not node identities, and the outline does not guarantee depths one apart. On other trees, only the weaker contract of `Lca.Lca2` is proved: a result is an ancestor of the first node.
- Lca.LcaSpeciesCorrect: proved under the same `Rooted` assumption.
- Guarantees.BuildSucceeds: assumes at most 10^15 candidates, so that every bucket-size list beats the sentinel.
- Analysis.AnalyseCorrect: assumes a `Rooted` outline in which every record names a node; `Lca.OutlineRooted` gives a condition on the outline's lines that ensures the first of these.
- CPython's recursion limit is left out. `build_decision_tree` recurses once per level of the decision tree, so a clade of more than about 1000 species directly under one node makes the source raise `RecursionError`. `Analysis.AnalyseCorrect` promises success there, as the algorithm itself would give. The same limit applies to `print_tree`, which is not modelled.
- Strings are sequences of code points. `str.isspace()` is modelled by the fixed set of whitespace code points that Python's `strip()` removes.

=== FILE: analysis.dfy ===
/** The analysis end to end (analyse.py, module level): parse the outline,
    bind the species list onto it, then synthesise the decision tree whose
    answers are the names of lowest common ancestors. */
module Analysis {
  import opened Wrappers
  import opened Taxonomy
  import opened Binding
  import opened Lca
  import opened Ordering
  import opened Decision
  import opened Strategy
  import opened Guarantees

  /** What the game answers when `guess` is played against the hidden
      species `secret`: the scientific name of their lowest common ancestor.
      An unknown label has no answer. */
  function Outcome(t: Tree, species: map<string, nat>, guess: string, secret: string): Option<string>
    requires SpeciesIn(t, species)
  {
    match LcaSpecies(t, species, [guess, secret])
    case None => None
    case Some(c) => Some(t.nodes[c].name)
  }

  /** The answer oracle of a bound tree. */
  function Answer(t: Tree, species: map<string, nat>): Oracle
    requires SpeciesIn(t, species)
  {
    (guess, secret) => Outcome(t, species, guess, secret)
  }

  /** On a rooted tree two known species always have an answer, and it is
      the name of the lowest common ancestor of their nodes. */
  lemma {:induction false} OutcomeIsLca(t: Tree, species: map<string, nat>, guess: string, secret: string)
    requires Rooted(t) && SpeciesIn(t, species) && guess in species && secret in species
    ensures Outcome(t, species, guess, secret).Some?
    ensures exists c: nat :: IsLowestCommon(t, c, [species[guess], species[secret]])
                        && Outcome(t, species, guess, secret) == Some(t.nodes[c].name)
  {
    var labels := [guess, secret];
    LcaSpeciesCorrect(t, species, labels);
    var c := LcaSpecies(t, species, labels).value;
    assert NodesOf(species, labels) == [species[guess], species[secret]];
    assert IsLowestCommon(t, c, [species[guess], species[secret]]);
  }

  /** An unknown label has no answer. */
  lemma {:induction false} OutcomeUnknown(t: Tree, species: map<string, nat>, guess: string, secret: string)
    requires SpeciesIn(t, species) && (guess !in species || secret !in species)
    ensures Outcome(t, species, guess, secret).None?
  {
    LcaSpeciesUnknown(t, species, [guess, secret], if guess !in species then 0 else 1);
  }

  /** `lca_species` of two known labels is `lca_2nodes` of their nodes. */
  lemma {:induction false} LcaPair(t: Tree, species: map<string, nat>, guess: string, secret: string)
    requires SpeciesIn(t, species) && guess in species && secret in species
    ensures LcaSpecies(t, species, [guess, secret]) == Lca2(t, species[guess], species[secret])
  {
    var labels := [guess, secret];
    assert labels[..1] == [guess];
    assert LcaSpecies(t, species, labels[..1]) == Some(species[guess]);
  }

  /** The answer does not depend on which of the two species was guessed. */
  lemma {:induction false} OutcomeSymmetric(t: Tree, species: map<string, nat>, guess: string, secret: string)
    requires Rooted(t) && SpeciesIn(t, species)
    ensures Outcome(t, species, guess, secret) == Outcome(t, species, secret, guess)
  {
    if guess in species && secret in species {
      LcaPair(t, species, guess, secret);
      LcaPair(t, species, secret, guess);
      Lca2Symmetric(t, species[guess], species[secret]);
    } else {
      OutcomeUnknown(t, species, guess, secret);
      OutcomeUnknown(t, species, secret, guess);
    }
  }

  /** With a rooted tree every species can be guessed against every other. */
  lemma {:induction false} AllAnswerable(t: Tree, species: map<string, nat>)
    requires Rooted(t) && SpeciesIn(t, species)
    ensures Answerable(Answer(t, species), species.Keys)
  {
    forall guess, secret | guess in species && secret in species
      ensures Answer(t, species)(guess, secret).Some?
    {
      OutcomeIsLca(t, species, guess, secret);
    }
  }

  datatype Error =
    | UnknownScientific(name: string)  // a record names no node of the tree
    | EmptyTree                        // the outline holds no node at all
    | NoDecision(reason: SynthesisError) // the synthesis failed

  /** The script: parse, bind, and build the decision tree for all species
      from the root, at depth 0. */
  function Analyse(lines: seq<string>, list: seq<Species>): (r: Result<(DTree, int), Error>)
    ensures r.Failure? && r.error.UnknownScientific? ==>
              exists i :: 0 <= i < |list| && list[i].scientific == r.error.name
                          && r.error.name !in ParsePhyloTree(lines).registry
    // a record naming no node stops the run at the lookup
    ensures (exists i :: 0 <= i < |list| && list[i].scientific !in ParsePhyloTree(lines).registry) ==>
              r.Failure? && r.error.UnknownScientific?
    // an empty list leaves nothing to guess: the synthesis assertion fails
    ensures list == [] && ParsePhyloTree(lines).nodes != [] ==> r == Failure(NoDecision(NoBestGuess))
    ensures r.Success? ==> ParsePhyloTree(lines).nodes != [] && r.value.0.subject == ParsePhyloTree(lines).nodes[0].name
  {
    var t := ParsePhyloTree(lines);
    match BindAll(t, list)
    case Failure(e) => Failure(UnknownScientific(e))
    case Success(b) =>
      if t.root.None? then Failure(EmptyTree)
      else
        assert SpeciesIn(t, b.species) by { BoundNodes(t, list, b); }
        match Build(Answer(t, b.species), 0, t.nodes[0].name, b.species.Keys)
        case Failure(e) => Failure(NoDecision(e))
        case Success(res) => Success(res)
  }

  /** The labels the binding records map to nodes of the tree, and they are
      exactly the labels of the list. */
  lemma {:induction false} BoundNodes(t: Tree, list: seq<Species>, b: Bound)
    requires Indexed(t) && BindAll(t, list) == Success(b)
    ensures SpeciesIn(t, b.species)
    ensures b.species.Keys == set i | 0 <= i < |list| :: list[i].name
  {
    forall lbl | lbl in b.species
      ensures b.species[lbl] < |t.nodes| && lbl in set i | 0 <= i < |list| :: list[i].name
    {
      var i :| LastWithLabel(list, i, lbl) && list[i].scientific in t.registry
               && b.species[lbl] == t.registry[list[i].scientific];
    }
  }

  /** On a rooted outline with every record naming a node, a non-empty list
      of at most 10^15 distinct labels yields a decision tree that finds
      every species by following the answers, whose guesses are exactly the
      species, and whose returned count is the sum, over all species, of the
      guesses needed to find it. `OutlineRooted` states which outlines
      parse to a rooted tree. */
  lemma {:induction false} AnalyseCorrect(lines: seq<string>, list: seq<Species>)
    requires Rooted(ParsePhyloTree(lines))
    requires forall i :: 0 <= i < |list| ==> list[i].scientific in ParsePhyloTree(lines).registry
    requires list != [] && |list| <= Sentinel
    ensures var t := ParsePhyloTree(lines);
            var b := BindAll(t, list).value;
            var labels := set i | 0 <= i < |list| :: list[i].name;
            SpeciesIn(t, b.species) && b.species.Keys == labels
            && Analyse(lines, list).Success?
            && TreeFacts(Answer(t, b.species), 0, labels, Analyse(lines, list).value.0, Analyse(lines, list).value.1)
  {
    var t := ParsePhyloTree(lines);
    var b := BindAll(t, list).value;
    BoundNodes(t, list, b);
    var labels := b.species.Keys;
    assert list[0].name in labels;
    LabelsBounded(list);
    AllAnswerable(t, b.species);
    var ans := Answer(t, b.species);
    BuildSucceeds(ans, 0, t.nodes[0].name, labels);
    BuildCorrect(ans, 0, t.nodes[0].name, labels);
  }

  /** A list has no more distinct labels than records. */
  lemma {:induction false} LabelsBounded(list: seq<Species>)
    ensures |set i | 0 <= i < |list| :: list[i].name| <= |list|
  {
    if list != [] {
      var front := list[..|list| - 1];
      LabelsBounded(front);
      var s := set i | 0 <= i < |list| :: list[i].name;
      var f := set i | 0 <= i < |front| :: front[i].name;
      assert s == f + {list[|list| - 1].name} by {
        forall i | 0 <= i < |front|
          ensures front[i] == list[i]
        {
        }
      }
    }
  }
}

=== FILE: binding.dfy ===
/** Binding the game's species onto the tree (analyse.py, the loop over the
    species list): each species label is recorded at the node named by its
    scientific name and added to the leaf set of that node and of every node
    up its parent chain. */
module Binding {
  import opened Wrappers
  import opened Taxonomy

  /** One record of the species list: the display label and the scientific
      name of the tree node it stands for. */
  datatype Species = Species(name: string, scientific: string)

  /** The tree's binding state: per node its `leaves` and `is_species` flag,
      and the label-to-node table the source keeps in `SPECIES`. */
  datatype Bound = Bound(leaves: seq<set<string>>, isSpecies: seq<bool>, species: map<string, nat>)

  /** The registry only names nodes of the tree. */
  predicate Indexed(t: Tree)
  {
    Wf(t) && forall nm :: nm in t.registry ==> t.registry[nm] < |t.nodes|
  }

  /** Adds `lbl` to the leaves of node `i` and of every node up its parent
      chain (the `while t is not None` walk). */
  function AddUp(t: Tree, leaves: seq<set<string>>, i: nat, lbl: string): (r: seq<set<string>>)
    requires Wf(t) && |leaves| == |t.nodes| && i < |t.nodes|
    ensures |r| == |leaves|
    ensures forall n: nat :: n < |r| ==>
              r[n] == if IsAncestor(t, n, i) then leaves[n] + {lbl} else leaves[n]
    decreases i
  {
    var added := leaves[i := leaves[i] + {lbl}];
    match t.nodes[i].parent
    case None => added
    case Some(p) => AddUp(t, added, p, lbl)
  }

  /** One iteration of the binding loop; an unknown scientific name stops
      the program (the registry lookup raises). */
  function BindOne(t: Tree, b: Bound, s: Species): Result<Bound, string>
    requires Indexed(t) && |b.leaves| == |t.nodes| && |b.isSpecies| == |t.nodes|
  {
    if s.scientific !in t.registry then Failure(s.scientific)
    else
      var n := t.registry[s.scientific];
      Success(Bound(AddUp(t, b.leaves, n, s.name), b.isSpecies[n := true], b.species[s.name := n]))
  }

  /** Label `lbl` was bound, by some record, to a node that `n` is an
      ancestor of. */
  ghost predicate BoundBelow(t: Tree, list: seq<Species>, n: nat, lbl: string)
    requires Indexed(t)
  {
    exists i :: 0 <= i < |list| && list[i].name == lbl && list[i].scientific in t.registry
                && IsAncestor(t, n, t.registry[list[i].scientific])
  }

  /** Some record names node `n`. */
  ghost predicate NamedBySome(t: Tree, list: seq<Species>, n: nat)
  {
    exists i :: 0 <= i < |list| && list[i].scientific in t.registry && t.registry[list[i].scientific] == n
  }

  /** Record `i` is the last one with label `lbl`. */
  predicate LastWithLabel(list: seq<Species>, i: int, lbl: string)
  {
    0 <= i < |list| && list[i].name == lbl && forall j :: i < j < |list| ==> list[j].name != lbl
  }

  /** What binding the first records of the list has established. */
  ghost predicate BindingOf(t: Tree, list: seq<Species>, b: Bound)
    requires Indexed(t)
  {
    && |b.leaves| == |t.nodes| && |b.isSpecies| == |t.nodes|
    && (forall n: nat, lbl :: n < |t.nodes| ==> (lbl in b.leaves[n] <==> BoundBelow(t, list, n, lbl)))
    && (forall n: nat :: n < |t.nodes| ==> (b.isSpecies[n] <==> NamedBySome(t, list, n)))
    && (forall i :: 0 <= i < |list| ==> list[i].name in b.species)
    && (forall lbl :: lbl in b.species ==>
          exists i :: LastWithLabel(list, i, lbl) && list[i].scientific in t.registry
                      && b.species[lbl] == t.registry[list[i].scientific])
  }

  /** The whole binding loop, record by record. */
  function BindAll(t: Tree, list: seq<Species>): (r: Result<Bound, string>)
    requires Indexed(t)
    // binding fails exactly when some record names no node, and reports the
    // first such scientific name
    ensures r.Success? <==> forall i :: 0 <= i < |list| ==> list[i].scientific in t.registry
    ensures r.Failure? ==> exists i :: 0 <= i < |list| && list[i].scientific == r.error
                                       && r.error !in t.registry
                                       && forall j :: 0 <= j < i ==> list[j].scientific in t.registry
    // a node's leaves are the labels bound at or below it; a node is a species
    // when some record names it; a label maps to the node of its last record
    ensures r.Success? ==> BindingOf(t, list, r.value)
    decreases |list|
  {
    if list == [] then
      Success(Bound(seq(|t.nodes|, _ => {}), seq(|t.nodes|, _ => false), map[]))
    else
      var prefix := list[..|list| - 1];
      var last := list[|list| - 1];
      assert prefix + [last] == list;
      match BindAll(t, prefix)
      case Failure(e) =>
        var i :| 0 <= i < |prefix| && prefix[i].scientific == e && e !in t.registry
                 && forall j :: 0 <= j < i ==> prefix[j].scientific in t.registry;
        assert list[i] == prefix[i];
        assert forall j :: 0 <= j < i ==> list[j] == prefix[j];
        Failure(e)
      case Success(b) =>
        BindStep(t, prefix, b, last);
        assert forall j :: 0 <= j < |prefix| ==> list[j] == prefix[j];
        BindOne(t, b, last)
  }

  /** One more record keeps the binding invariant. */
  lemma {:induction false} BindStep(t: Tree, prefix: seq<Species>, b: Bound, s: Species)
    requires Indexed(t) && BindingOf(t, prefix, b)
    ensures BindOne(t, b, s).Success? <==> s.scientific in t.registry
    ensures BindOne(t, b, s).Success? ==> BindingOf(t, prefix + [s], BindOne(t, b, s).value)
  {
    if s.scientific in t.registry {
      BindStepLeaves(t, prefix, b, s);
      BindStepFlags(t, prefix, b, s);
      BindStepLabels(t, prefix, b, s);
    }
  }

  lemma {:induction false} BindStepLeaves(t: Tree, prefix: seq<Species>, b: Bound, s: Species)
    requires Indexed(t) && BindingOf(t, prefix, b) && s.scientific in t.registry
    ensures var c := BindOne(t, b, s).value;
            forall n: nat, lbl :: n < |t.nodes| ==> (lbl in c.leaves[n] <==> BoundBelow(t, prefix + [s], n, lbl))
  {
    var list := prefix + [s];
    var k := |prefix|;
    var node := t.registry[s.scientific];
    var c := BindOne(t, b, s).value;
    forall n: nat, lbl | n < |t.nodes|
      ensures lbl in c.leaves[n] <==> BoundBelow(t, list, n, lbl)
    {
      if BoundBelow(t, prefix, n, lbl) {
        var i :| 0 <= i < |prefix| && prefix[i].name == lbl && prefix[i].scientific in t.registry
                 && IsAncestor(t, n, t.registry[prefix[i].scientific]);
        assert list[i] == prefix[i];
      }
      if lbl == s.name && IsAncestor(t, n, node) {
        assert list[k] == s;
      }
      if BoundBelow(t, list, n, lbl) {
        var i :| 0 <= i < |list| && list[i].name == lbl && list[i].scientific in t.registry
                 && IsAncestor(t, n, t.registry[list[i].scientific]);
        if i < k {
          assert prefix[i] == list[i];
        }
      }
    }
  }

  lemma {:induction false} BindStepFlags(t: Tree, prefix: seq<Species>, b: Bound, s: Species)
    requires Indexed(t) && BindingOf(t, prefix, b) && s.scientific in t.registry
    ensures var c := BindOne(t, b, s).value;
            forall n: nat :: n < |t.nodes| ==> (c.isSpecies[n] <==> NamedBySome(t, prefix + [s], n))
  {
    var list := prefix + [s];
    var k := |prefix|;
    var node := t.registry[s.scientific];
    var c := BindOne(t, b, s).value;
    forall n: nat | n < |t.nodes|
      ensures c.isSpecies[n] <==> NamedBySome(t, list, n)
    {
      if NamedBySome(t, prefix, n) {
        var i :| 0 <= i < |prefix| && prefix[i].scientific in t.registry && t.registry[prefix[i].scientific] == n;
        assert list[i] == prefix[i];
      }
      if n == node {
        assert list[k] == s;
      }
      if NamedBySome(t, list, n) {
        var i :| 0 <= i < |list| && list[i].scientific in t.registry && t.registry[list[i].scientific] == n;
        if i < k {
          assert prefix[i] == list[i];
        }
      }
    }
  }

  lemma {:induction false} BindStepLabels(t: Tree, prefix: seq<Species>, b: Bound, s: Species)
    requires Indexed(t) && BindingOf(t, prefix, b) && s.scientific in t.registry
    ensures var c := BindOne(t, b, s).value;
            var list := prefix + [s];
            && (forall i :: 0 <= i < |list| ==> list[i].name in c.species)
            && (forall lbl :: lbl in c.species ==>
                  exists i :: LastWithLabel(list, i, lbl) && list[i].scientific in t.registry
                              && c.species[lbl] == t.registry[list[i].scientific])
  {
    var list := prefix + [s];
    var k := |prefix|;
    var c := BindOne(t, b, s).value;
    forall i | 0 <= i < |list|
      ensures list[i].name in c.species
    {
      if i < k {
        assert list[i] == prefix[i];
      }
    }
    forall lbl | lbl in c.species
      ensures exists i :: LastWithLabel(list, i, lbl) && list[i].scientific in t.registry
                          && c.species[lbl] == t.registry[list[i].scientific]
    {
      if lbl == s.name {
        assert LastWithLabel(list, k, lbl);
      } else {
        var i :| LastWithLabel(prefix, i, lbl) && prefix[i].scientific in t.registry
                 && b.species[lbl] == t.registry[prefix[i].scientific];
        assert list[i] == prefix[i];
        assert LastWithLabel(list, i, lbl);
      }
    }
  }

  /** With every node attached under node 0, the root's leaves are exactly the
      labels of the list. */
  lemma {:induction false} RootLeaves(t: Tree, list: seq<Species>, b: Bound)
    requires Indexed(t) && Connected(t)
    requires BindAll(t, list) == Success(b)
    ensures b.leaves[0] == set i | 0 <= i < |list| :: list[i].name
  {
    forall lbl | lbl in b.leaves[0]
      ensures lbl in set i | 0 <= i < |list| :: list[i].name
    {
      assert BoundBelow(t, list, 0, lbl);
    }
    forall i | 0 <= i < |list|
      ensures list[i].name in b.leaves[0]
    {
      RootAncestorOfAll(t, t.registry[list[i].scientific]);
      assert BoundBelow(t, list, 0, list[i].name);
    }
  }

  /** A node's leaves are the union of its children's leaves and the labels
      bound at the node itself. */
  lemma {:induction false} LeavesAreChildrenUnion(t: Tree, list: seq<Species>, b: Bound, n: nat, lbl: string)
    requires Indexed(t) && n < |t.nodes|
    requires BindAll(t, list) == Success(b)
    ensures lbl in b.leaves[n] <==>
              || (exists i :: 0 <= i < |list| && list[i].name == lbl && t.registry[list[i].scientific] == n)
              || (exists c :: 0 <= c < |t.nodes| && t.nodes[c].parent == Some(n) && lbl in b.leaves[c])
  {
    if lbl in b.leaves[n] {
      assert BoundBelow(t, list, n, lbl);
      var i :| 0 <= i < |list| && list[i].name == lbl && list[i].scientific in t.registry
               && IsAncestor(t, n, t.registry[list[i].scientific]);
      var a := t.registry[list[i].scientific];
      if n != a {
        AncestorChildOnPath(t, n, a);
        var c :| 0 <= c < |t.nodes| && t.nodes[c].parent == Some(n) && IsAncestor(t, c, a);
        assert BoundBelow(t, list, c, lbl);
      }
    }
    if exists c :: 0 <= c < |t.nodes| && t.nodes[c].parent == Some(n) && lbl in b.leaves[c] {
      var c :| 0 <= c < |t.nodes| && t.nodes[c].parent == Some(n) && lbl in b.leaves[c];
      assert BoundBelow(t, list, c, lbl);
      var i :| 0 <= i < |list| && list[i].name == lbl && list[i].scientific in t.registry
               && IsAncestor(t, c, t.registry[list[i].scientific]);
      assert IsAncestor(t, n, c);
      AncestorTransitive(t, n, c, t.registry[list[i].scientific]);
      assert BoundBelow(t, list, n, lbl);
    }
    if exists i :: 0 <= i < |list| && list[i].name == lbl && t.registry[list[i].scientific] == n {
      var i :| 0 <= i < |list| && list[i].name == lbl && t.registry[list[i].scientific] == n;
      assert BoundBelow(t, list, n, lbl);
    }
  }
}

=== FILE: decision.dfy ===
/** The greedy decision-tree synthesis (analyse.py, `get_successors` and
    `build_decision_tree`). A guess splits the remaining candidates by the
    answer the game gives, the name of the lowest common ancestor of guess
    and secret; the guess chosen is the first, in sorted order, whose list of
    bucket sizes is lexicographically smallest. */
module Decision {
  import opened Wrappers
  import opened Ordering

  /** The game's answer to asking `guess` while the hidden species is
      `secret`, or `None` where computing it fails. */
  type Oracle = (string, string) -> Option<string>

  /** Every candidate other than `guess` gets an answer (no lookup or climb
      fails). */
  predicate Resolvable(ans: Oracle, poss: set<string>, guess: string)
  {
    forall secret :: secret in poss && secret != guess ==> ans(guess, secret).Some?
  }

  /** What `get_successors` returns: the candidates grouped by answer, and
      the group sizes largest first. */
  datatype Successors = Successors(buckets: map<string, set<string>>, sizes: seq<nat>)

  /** The sizes of the buckets named by `keys`, in that order. */
  function Sizes(buckets: map<string, set<string>>, keys: seq<string>): (r: seq<nat>)
    requires forall i :: 0 <= i < |keys| ==> keys[i] in buckets
    ensures |r| == |keys|
    ensures forall i :: 0 <= i < |keys| ==> r[i] == |buckets[keys[i]]|
  {
    if keys == [] then [] else [|buckets[keys[0]]|] + Sizes(buckets, keys[1..])
  }

  /** The union of the buckets named by `keys`. */
  function UnionOver(buckets: map<string, set<string>>, keys: seq<string>): set<string>
    requires forall i :: 0 <= i < |keys| ==> keys[i] in buckets
  {
    if keys == [] then {} else buckets[keys[0]] + UnionOver(buckets, keys[1..])
  }

  /** Different answers never share a candidate. */
  predicate Disjoint(buckets: map<string, set<string>>)
  {
    forall k1, k2 :: k1 in buckets && k2 in buckets && k1 != k2 ==> buckets[k1] !! buckets[k2]
  }

  /** `keys` lists every bucket exactly once. */
  ghost predicate ListsKeys(buckets: map<string, set<string>>, keys: seq<string>)
  {
    && (forall k :: k in keys <==> k in buckets)
    && Distinct(keys)
  }

  lemma {:induction false} UnionOverMembers(buckets: map<string, set<string>>, keys: seq<string>, x: string)
    requires forall i :: 0 <= i < |keys| ==> keys[i] in buckets
    ensures x in UnionOver(buckets, keys) <==> exists i :: 0 <= i < |keys| && x in buckets[keys[i]]
  {
    if keys != [] {
      UnionOverMembers(buckets, keys[1..], x);
      if exists i :: 0 <= i < |keys| && x in buckets[keys[i]] {
        var i :| 0 <= i < |keys| && x in buckets[keys[i]];
        if i > 0 {
          assert keys[1..][i - 1] == keys[i];
        }
      }
      if exists i :: 0 <= i < |keys| - 1 && x in buckets[keys[1..][i]] {
        var i :| 0 <= i < |keys| - 1 && x in buckets[keys[1..][i]];
        assert keys[1..][i] == keys[i + 1];
      }
    }
  }

  /** With disjoint buckets listed once each, the first bucket shares nothing
      with the union of the rest. */
  lemma {:induction false} FirstBucketApart(buckets: map<string, set<string>>, keys: seq<string>)
    requires Disjoint(buckets) && keys != []
    requires forall i :: 0 <= i < |keys| ==> keys[i] in buckets
    requires Distinct(keys)
    ensures buckets[keys[0]] !! UnionOver(buckets, keys[1..])
  {
    forall x | x in buckets[keys[0]] && x in UnionOver(buckets, keys[1..])
      ensures false
    {
      UnionOverMembers(buckets, keys[1..], x);
    }
  }

  /** The sizes of disjoint buckets add up to the size of their union. */
  lemma {:induction false} SizesSum(buckets: map<string, set<string>>, keys: seq<string>)
    requires Disjoint(buckets)
    requires forall i :: 0 <= i < |keys| ==> keys[i] in buckets
    requires Distinct(keys)
    ensures SeqSum(Sizes(buckets, keys)) == |UnionOver(buckets, keys)|
  {
    if keys != [] {
      SizesSum(buckets, keys[1..]);
      FirstBucketApart(buckets, keys);
      assert Sizes(buckets, keys)[1..] == Sizes(buckets, keys[1..]);
    }
  }

  /** How many of the listed buckets have `n` members. */
  lemma {:induction false} SizesCount(buckets: map<string, set<string>>, keys: seq<string>, n: nat)
    requires forall i :: 0 <= i < |keys| ==> keys[i] in buckets
    requires Distinct(keys)
    ensures multiset(Sizes(buckets, keys))[n] == |SizedKeys(buckets, keys, n)|
  {
    if keys != [] {
      var rest := keys[1..];
      SizesCount(buckets, rest, n);
      assert multiset(Sizes(buckets, keys)) == multiset{|buckets[keys[0]]|} + multiset(Sizes(buckets, rest));
      HeadNotInTail(keys);
      SizedKeysCons(buckets, keys, n);
    }
  }

  /** The listed keys whose bucket has `n` members. */
  function SizedKeys(buckets: map<string, set<string>>, keys: seq<string>, n: nat): set<string>
    requires forall i :: 0 <= i < |keys| ==> keys[i] in buckets
  {
    set k | k in keys && |buckets[k]| == n
  }

  lemma {:induction false} HeadNotInTail(keys: seq<string>)
    requires keys != []
    requires Distinct(keys)
    ensures keys[0] !in keys[1..]
  {
    forall i | 0 <= i < |keys| - 1 ensures keys[1..][i] != keys[0] {
      assert keys[1..][i] == keys[i + 1];
    }
  }

  lemma {:induction false} SizedKeysCons(buckets: map<string, set<string>>, keys: seq<string>, n: nat)
    requires keys != [] && keys[0] !in keys[1..]
    requires forall i :: 0 <= i < |keys| ==> keys[i] in buckets
    ensures |SizedKeys(buckets, keys, n)| ==
            |SizedKeys(buckets, keys[1..], n)| + (if |buckets[keys[0]]| == n then 1 else 0)
  {
    var tail := SizedKeys(buckets, keys[1..], n);
    assert keys == [keys[0]] + keys[1..];
    if |buckets[keys[0]]| == n {
      assert SizedKeys(buckets, keys, n) == tail + {keys[0]};
    } else {
      assert SizedKeys(buckets, keys, n) == tail;
    }
  }

  /** The buckets split the candidates other than `guess` by answer: each
      such candidate sits in the bucket of its answer, a bucket is never
      empty and holds only candidates with that answer. */
  ghost predicate SplitsByAnswer(ans: Oracle, poss: set<string>, guess: string,
                                 buckets: map<string, set<string>>)
  {
    && (forall secret :: secret in poss && secret != guess ==>
          ans(guess, secret).Some?
          && ans(guess, secret).value in buckets
          && secret in buckets[ans(guess, secret).value])
    && (forall k :: k in buckets ==> buckets[k] != {})
    && (forall k, secret :: k in buckets && secret in buckets[k] ==>
          secret in poss && secret != guess && ans(guess, secret) == Some(k))
  }

  /** `sizes` lists the bucket sizes largest first: one entry per bucket, and
      each size as often as there are buckets of that size. */
  ghost predicate SizesOf(buckets: map<string, set<string>>, sizes: seq<nat>)
  {
    && NonIncreasing(sizes)
    && |sizes| == |buckets|
    && forall n: nat ::
         multiset(sizes)[n] == |set k | k in buckets && |buckets[k]| == n|
  }

  /** `get_successors(poss, guess)`; `None` where the source would fail
      computing an answer. */
  function GetSuccessors(ans: Oracle, poss: set<string>, guess: string): (r: Option<Successors>)
    ensures r.Some? <==> Resolvable(ans, poss, guess)
  {
    if !Resolvable(ans, poss, guess) then None
    else
      var rest := poss - {guess};
      var answers := set secret | secret in rest :: ans(guess, secret).value;
      var buckets := map k | k in answers ::
                       set secret | secret in rest && ans(guess, secret) == Some(k);
      Some(Successors(buckets, SortDesc(Sizes(buckets, SortedElems(answers)))))
  }

  /** What `get_successors` promises: a split of the other candidates by
      answer, and a size profile that counts them all. */
  lemma {:induction false} GetSuccessorsSpec(ans: Oracle, poss: set<string>, guess: string)
    requires Resolvable(ans, poss, guess)
    ensures var s := GetSuccessors(ans, poss, guess).value;
            && SplitsByAnswer(ans, poss, guess, s.buckets)
            && SizesOf(s.buckets, s.sizes)
            && SeqSum(s.sizes) == |poss - {guess}|
  {
    var rest := poss - {guess};
    var answers := set secret | secret in rest :: ans(guess, secret).value;
    var buckets := map k | k in answers ::
                     set secret | secret in rest && ans(guess, secret) == Some(k);
    BucketsSplit(ans, poss, guess, buckets);
    SplitDisjoint(ans, poss, guess, buckets);
    assert buckets.Keys == answers;
    SortedKeysListed(buckets);
    SplitUnion(ans, poss, guess, buckets, SortedElems(answers));
    SizesProfile(buckets, SortedElems(answers));
  }

  /** The buckets `get_successors` builds split the candidates by answer. */
  lemma {:induction false} BucketsSplit(ans: Oracle, poss: set<string>, guess: string,
                     buckets: map<string, set<string>>)
    requires Resolvable(ans, poss, guess)
    requires buckets == map k | k in (set secret | secret in poss - {guess} :: ans(guess, secret).value) ::
                          set secret | secret in poss - {guess} && ans(guess, secret) == Some(k)
    ensures SplitsByAnswer(ans, poss, guess, buckets)
  {
    forall k | k in buckets
      ensures buckets[k] != {}
    {
      var secret :| secret in poss - {guess} && ans(guess, secret).value == k;
      assert secret in buckets[k];
    }
  }

  lemma {:induction false} SplitDisjoint(ans: Oracle, poss: set<string>, guess: string,
                      buckets: map<string, set<string>>)
    requires SplitsByAnswer(ans, poss, guess, buckets)
    ensures Disjoint(buckets)
  {
    forall k1, k2 | k1 in buckets && k2 in buckets && k1 != k2
      ensures buckets[k1] !! buckets[k2]
    {
      forall x | x in buckets[k1]
        ensures x !in buckets[k2]
      {
        assert ans(guess, x) == Some(k1);
      }
    }
  }

  /** Listed once each, the buckets of a split cover exactly the candidates
      other than the guess. */
  lemma {:induction false} SplitUnion(ans: Oracle, poss: set<string>, guess: string,
                   buckets: map<string, set<string>>, keys: seq<string>)
    requires SplitsByAnswer(ans, poss, guess, buckets)
    requires ListsKeys(buckets, keys)
    ensures forall i :: 0 <= i < |keys| ==> keys[i] in buckets
    ensures UnionOver(buckets, keys) == poss - {guess}
  {
    forall i | 0 <= i < |keys|
      ensures keys[i] in buckets
    {
      assert keys[i] in keys;
    }
    forall x
      ensures x in UnionOver(buckets, keys) <==> x in poss - {guess}
    {
      UnionOverMembers(buckets, keys, x);
      if x in UnionOver(buckets, keys) {
        var i :| 0 <= i < |keys| && x in buckets[keys[i]];
        assert keys[i] in keys;
        assert keys[i] in buckets && x in buckets[keys[i]];
        assert x in poss && x != guess;
      }
      if x in poss - {guess} {
        var k := ans(guess, x).value;
        assert k in keys;
        var i :| 0 <= i < |keys| && keys[i] == k;
        assert x in buckets[keys[i]];
      }
    }
  }

  lemma {:induction false} SortedKeysListed(buckets: map<string, set<string>>)
    ensures ListsKeys(buckets, SortedElems(buckets.Keys))
  {
  }

  /** Sorting the sizes of listed, disjoint buckets gives their profile. */
  lemma {:induction false} SizesProfile(buckets: map<string, set<string>>, keys: seq<string>)
    requires Disjoint(buckets) && ListsKeys(buckets, keys)
    ensures forall i :: 0 <= i < |keys| ==> keys[i] in buckets
    ensures SizesOf(buckets, SortDesc(Sizes(buckets, keys)))
    ensures SeqSum(SortDesc(Sizes(buckets, keys))) == |UnionOver(buckets, keys)|
  {
    assert forall i :: 0 <= i < |keys| ==> keys[i] in buckets by {
      forall i | 0 <= i < |keys| ensures keys[i] in buckets {
        assert keys[i] in keys;
      }
    }
    SizesSum(buckets, keys);
    assert |keys| == |buckets| by {
      var ks := set k | k in keys;
      assert ks == buckets.Keys;
      DistinctCard(keys);
    }
    forall n: nat
      ensures multiset(SortDesc(Sizes(buckets, keys)))[n] == |set k | k in buckets && |buckets[k]| == n|
    {
      SizesCount(buckets, keys, n);
      assert SizedKeys(buckets, keys, n) == (set k | k in buckets && |buckets[k]| == n);
    }
  }

  /** A list without repeats has as many elements as the set of them. */
  lemma {:induction false} DistinctCard(keys: seq<string>)
    requires Distinct(keys)
    ensures |set k | k in keys| == |keys|
  {
    if keys != [] {
      DistinctCard(keys[1..]);
      assert (set k | k in keys) == (set k | k in keys[1..]) + {keys[0]};
      assert keys[0] !in keys[1..];
    }
  }

  /** Why a synthesis stops: the scan kept no best guess, so the source's
      assertion fails (the candidate set is empty, or no profile is below
      the initial best `[1e15]`), or an answer cannot be computed. */
  datatype SynthesisError = NoBestGuess | LcaFailed

  /** How a guess splits the current candidates, or `None` if it cannot. */
  type Splitter = string -> Option<Successors>

  /** `get_successors` on the current candidates, as the scan uses it. */
  function SplitterFor(ans: Oracle, poss: set<string>): Splitter
  {
    c => GetSuccessors(ans, poss, c)
  }

  /** The best guess found so far and its split. */
  datatype Choice = Choice(guess: string, succ: Successors)

  /** The profiles of `cands`, in order: each one's bucket sizes, largest
      first. */
  function Profiles(split: Splitter, cands: seq<string>): (r: seq<seq<int>>)
    requires forall i :: 0 <= i < |cands| ==> split(cands[i]).Some?
    ensures |r| == |cands|
  {
    if cands == [] then [] else [split(cands[0]).value.sizes] + Profiles(split, cands[1..])
  }

  lemma {:induction false} ProfilesAt(split: Splitter, cands: seq<string>, i: nat)
    requires forall m :: 0 <= m < |cands| ==> split(cands[m]).Some?
    requires i < |cands|
    ensures Profiles(split, cands)[i] == split(cands[i]).value.sizes
  {
    if i > 0 {
      ProfilesAt(split, cands[1..], i - 1);
    }
  }

  /** `ps[j]` is the smallest of `ps[..n]`, and every earlier entry is
      strictly larger: the entry a strict `<` scan from the left keeps. */
  ghost predicate FirstMinimal(ps: seq<seq<int>>, j: nat, n: nat)
    requires j < n <= |ps|
  {
    && (forall m :: 0 <= m < n ==> !LexLess(ps[m], ps[j]))
    && (forall m :: 0 <= m < j ==> LexLess(ps[j], ps[m]))
  }

  /** One iteration of the scan keeps the first minimal entry. */
  lemma {:induction false} FirstMinimalStep(ps: seq<seq<int>>, j: nat, i: nat)
    requires j < i < |ps| && FirstMinimal(ps, j, i)
    ensures LexLess(ps[i], ps[j]) ==> FirstMinimal(ps, i, i + 1)
    ensures !LexLess(ps[i], ps[j]) ==> FirstMinimal(ps, j, i + 1)
  {
    var p, pj := ps[i], ps[j];
    if LexLess(p, pj) {
      forall m | 0 <= m < i + 1
        ensures !LexLess(ps[m], p)
      {
        if m == i {
          LexIrreflexive(p);
        } else if LexLess(ps[m], p) {
          LexTransitive(ps[m], p, pj);
        }
      }
      forall m | 0 <= m < i
        ensures LexLess(p, ps[m])
      {
        LexTotal(ps[m], pj);
        if ps[m] != pj {
          LexTransitive(p, pj, ps[m]);
        }
      }
    }
  }

  /** The one-element list the source starts its best profile at, `1e15`
      (an integer the float represents exactly). */
  const Sentinel: int := 1_000_000_000_000_000

  /** The profile the next candidate has to beat. */
  function BestBits(best: Option<Choice>): seq<int>
  {
    if best.None? then [Sentinel] else best.value.succ.sizes
  }

  /** The candidate loop of `build_decision_tree` from position `i` on, with
      `best` the choice so far (`None` until some profile beats the
      sentinel). */
  function Scan(split: Splitter, cands: seq<string>, i: nat, best: Option<Choice>)
    : (r: Result<Option<Choice>, SynthesisError>)
    requires i <= |cands|
    requires best.Some? ==> best.value.guess in cands && split(best.value.guess) == Some(best.value.succ)
    ensures r.Success? <==> forall m :: i <= m < |cands| ==> split(cands[m]).Some?
    ensures r.Success? && best.Some? ==> r.value.Some?
    ensures r.Success? && r.value.Some? ==>
              r.value.value.guess in cands && split(r.value.value.guess) == Some(r.value.value.succ)
    decreases |cands| - i
  {
    if i == |cands| then Success(best)
    else
      match split(cands[i])
      case None => Failure(LcaFailed)
      case Some(s) =>
        var next := if LexLess(s.sizes, BestBits(best)) then Some(Choice(cands[i], s)) else best;
        Scan(split, cands, i + 1, next)
  }

  /** From position `i` on, with the first minimal of `cands[..i]` at `j` as
      the best so far, the scan ends on the first minimal candidate `k` of
      the whole list. */
  lemma {:induction false} ScanPicksFirstMinimal(split: Splitter, cands: seq<string>,
                                                 i: nat, best: Option<Choice>, j: nat)
    returns (k: nat)
    requires i <= |cands|
    requires forall m :: 0 <= m < |cands| ==> split(cands[m]).Some?
    requires forall m :: 0 <= m < |cands| ==> LexLess(split(cands[m]).value.sizes, [Sentinel])
    requires i == 0 ==> best == None && |cands| > 0
    requires i > 0 ==> j < i && best == Some(Choice(cands[j], split(cands[j]).value))
                       && FirstMinimal(Profiles(split, cands), j, i)
    ensures k < |cands|
    ensures Scan(split, cands, i, best) == Success(Some(Choice(cands[k], split(cands[k]).value)))
    ensures FirstMinimal(Profiles(split, cands), k, |cands|)
    decreases |cands| - i
  {
    var ps := Profiles(split, cands);
    if i == |cands| {
      k := j;
    } else {
      ProfilesAt(split, cands, i);
      if i == 0 {
        LexIrreflexive(ps[0]);
        assert FirstMinimal(ps, 0, 1);
        k := ScanPicksFirstMinimal(split, cands, 1, Some(Choice(cands[0], split(cands[0]).value)), 0);
      } else {
        ProfilesAt(split, cands, j);
        FirstMinimalStep(ps, j, i);
        if LexLess(ps[i], ps[j]) {
          k := ScanPicksFirstMinimal(split, cands, i + 1, Some(Choice(cands[i], split(cands[i]).value)), i);
        } else {
          k := ScanPicksFirstMinimal(split, cands, i + 1, best, j);
        }
      }
    }
  }

  /** One node of the decision tree: the clade it concerns, the guess made
      there, and one branch per possible answer, in sorted answer order. */
  datatype DTree = Decide(subject: string, guess: string, branches: seq<Branch>)
  datatype Branch = Branch(outcome: string, next: DTree)

  lemma {:induction false} BucketsSmaller(ans: Oracle, poss: set<string>, guess: string, s: Successors)
    requires guess in poss
    requires GetSuccessors(ans, poss, guess) == Some(s)
    ensures forall k :: k in s.buckets ==> |s.buckets[k]| < |poss|
  {
    GetSuccessorsSpec(ans, poss, guess);
    forall k | k in s.buckets
      ensures |s.buckets[k]| < |poss|
    {
      SubsetSmaller(s.buckets[k], poss, guess);
    }
  }

  lemma {:induction false} SubsetSmaller(b: set<string>, poss: set<string>, guess: string)
    requires guess in poss && b <= poss - {guess}
    ensures |b| < |poss|
  {
    assert poss - {guess} == b + (poss - {guess} - b);
  }

  /** The buckets in sorted answer order, each smaller than `bound`. */
  lemma {:induction false} SortedBuckets(buckets: map<string, set<string>>, bound: nat)
    requires forall k :: k in buckets ==> |buckets[k]| < bound
    ensures forall k :: k in SortedElems(buckets.Keys) ==> k in buckets && |buckets[k]| < bound
  {
  }

  /** `build_decision_tree(depth, subject, poss)`: the decision tree it
      prints, and the number it returns. */
  function Build(ans: Oracle, depth: nat, subject: string, poss: set<string>)
    : (r: Result<(DTree, int), SynthesisError>)
    // the empty candidate set trips the assertion
    ensures poss == {} ==> r == Failure(NoBestGuess)
    ensures r.Success? ==> r.value.0.subject == subject && r.value.0.guess in poss
    decreases |poss|, 2, 0
  {
    match Scan(SplitterFor(ans, poss), SortedElems(poss), 0, None)
    case Failure(e) => Failure(e)
    case Success(None) => Failure(NoBestGuess)
    case Success(Some(choice)) => Descend(ans, depth, subject, poss, choice)
  }

  /** The rest of `build_decision_tree` once the guess is chosen: one
      subtree per answer, one level deeper. */
  function Descend(ans: Oracle, depth: nat, subject: string, poss: set<string>, choice: Choice)
    : (r: Result<(DTree, int), SynthesisError>)
    requires choice.guess in poss && GetSuccessors(ans, poss, choice.guess) == Some(choice.succ)
    ensures r.Success? ==> r.value.0.subject == subject && r.value.0.guess == choice.guess
    decreases |poss|, 1, 0
  {
    var buckets := choice.succ.buckets;
    BucketsSmaller(ans, poss, choice.guess, choice.succ);
    SortedBuckets(buckets, |poss|);
    var below := Branches(ans, depth + 1, |poss|, buckets, SortedElems(buckets.Keys));
    if below.Failure? then Failure(below.error)
    else Success((Decide(subject, choice.guess, below.value.0), below.value.1 + depth + 1))
  }

  lemma {:induction false} DescendUnfold(ans: Oracle, depth: nat, subject: string, poss: set<string>, choice: Choice)
    requires choice.guess in poss && GetSuccessors(ans, poss, choice.guess) == Some(choice.succ)
    requires Descend(ans, depth, subject, poss, choice).Success?
    ensures forall k :: k in SortedElems(choice.succ.buckets.Keys) ==> k in choice.succ.buckets && |choice.succ.buckets[k]| < |poss|
    ensures Branches(ans, depth + 1, |poss|, choice.succ.buckets, SortedElems(choice.succ.buckets.Keys)).Success?
    ensures Descend(ans, depth, subject, poss, choice).value.0.branches == Branches(ans, depth + 1, |poss|, choice.succ.buckets, SortedElems(choice.succ.buckets.Keys)).value.0
    ensures Descend(ans, depth, subject, poss, choice).value.1 == Branches(ans, depth + 1, |poss|, choice.succ.buckets, SortedElems(choice.succ.buckets.Keys)).value.1 + depth + 1
  {
    BucketsSmaller(ans, poss, choice.guess, choice.succ);
    SortedBuckets(choice.succ.buckets, |poss|);
  }

  /** One step of the loop over the buckets, spelled out. */
  lemma {:induction false} BranchesUnfold(ans: Oracle, depth: nat, bound: nat, buckets: map<string, set<string>>, keys: seq<string>)
    requires forall k :: k in keys ==> k in buckets && |buckets[k]| < bound
    requires keys != [] && Branches(ans, depth, bound, buckets, keys).Success?
    ensures Build(ans, depth, keys[0], buckets[keys[0]]).Success?
    ensures Branches(ans, depth, bound, buckets, keys[1..]).Success?
    ensures Branches(ans, depth, bound, buckets, keys).value.0
            == [Branch(keys[0], Build(ans, depth, keys[0], buckets[keys[0]]).value.0)]
               + Branches(ans, depth, bound, buckets, keys[1..]).value.0
    ensures Branches(ans, depth, bound, buckets, keys).value.1
            == Build(ans, depth, keys[0], buckets[keys[0]]).value.1
               + Branches(ans, depth, bound, buckets, keys[1..]).value.1
  {
  }

  /** The loop over the buckets in sorted answer order, one subtree each,
      adding up the returned counts. */
  function Branches(ans: Oracle, depth: nat, ghost bound: nat,
                    buckets: map<string, set<string>>, keys: seq<string>)
    : (r: Result<(seq<Branch>, int), SynthesisError>)
    requires forall k :: k in keys ==> k in buckets && |buckets[k]| < bound
    ensures r.Success? ==> |r.value.0| == |keys|
    decreases bound, 0, |keys|
  {
    if keys == [] then Success(([], 0))
    else
      var first := Build(ans, depth, keys[0], buckets[keys[0]]);
      var others := Branches(ans, depth, bound, buckets, keys[1..]);
      if first.Failure? then Failure(first.error)
      else if others.Failure? then Failure(others.error)
      else Success(([Branch(keys[0], first.value.0)] + others.value.0, first.value.1 + others.value.1))
  }
}

=== FILE: guarantees.dfy ===
/** When `build_decision_tree` succeeds, and which guess it picks at each
    node. */
module Guarantees {
  import opened Wrappers
  import opened Ordering
  import opened Decision

  /** Every guess among `poss` can be answered for every other candidate. */
  ghost predicate Answerable(ans: Oracle, poss: set<string>)
  {
    forall guess :: guess in poss ==> Resolvable(ans, poss, guess)
  }

  lemma {:induction false} AnswerableSubset(ans: Oracle, poss: set<string>, part: set<string>)
    requires Answerable(ans, poss) && part <= poss
    ensures Answerable(ans, part)
  {
    forall guess | guess in part
      ensures Resolvable(ans, part, guess)
    {
      assert Resolvable(ans, poss, guess);
    }
  }

  /** The sizes of the successors of a guess: what the scan compares. */
  function Profile(ans: Oracle, poss: set<string>, guess: string): seq<int>
    requires Resolvable(ans, poss, guess)
  {
    GetSuccessors(ans, poss, guess).value.sizes
  }

  /** The initial best of the scan, a one-element list holding 10^15, is
      beaten by every guess as long as there are at most 10^15 candidates:
      no bucket can be that large. */
  lemma {:induction false} ProfileBelowSentinel(ans: Oracle, poss: set<string>, guess: string)
    requires guess in poss && Resolvable(ans, poss, guess) && |poss| <= Sentinel
    ensures LexLess(Profile(ans, poss, guess), [Sentinel])
  {
    GetSuccessorsSpec(ans, poss, guess);
    var sizes := GetSuccessors(ans, poss, guess).value.sizes;
    if sizes != [] {
      EntryBelowSum(sizes, 0);
      assert |poss - {guess}| < |poss|;
    }
  }

  /** Every candidate of a fully answerable set has successors, and a
      profile below the initial best. */
  lemma {:induction false} ScanReady(ans: Oracle, poss: set<string>)
    requires Answerable(ans, poss) && |poss| <= Sentinel
    ensures forall m :: 0 <= m < |SortedElems(poss)| ==>
              SplitterFor(ans, poss)(SortedElems(poss)[m]).Some?
              && LexLess(SplitterFor(ans, poss)(SortedElems(poss)[m]).value.sizes, [Sentinel])
  {
    var cands := SortedElems(poss);
    forall m | 0 <= m < |cands|
      ensures SplitterFor(ans, poss)(cands[m]).Some?
              && LexLess(SplitterFor(ans, poss)(cands[m]).value.sizes, [Sentinel])
    {
      assert cands[m] in poss;
      ProfileBelowSentinel(ans, poss, cands[m]);
    }
  }

  /** The first minimal candidate of a scan over increasing candidates,
      against any other candidate. */
  lemma {:induction false} FirstMinimalAgainst(split: Splitter, cands: seq<string>, k: nat, m: nat)
    requires forall i :: 0 <= i < |cands| ==> split(cands[i]).Some?
    requires StrictlyIncreasing(cands) && k < |cands| && m < |cands|
    requires FirstMinimal(Profiles(split, cands), k, |cands|)
    ensures !LexLess(split(cands[m]).value.sizes, split(cands[k]).value.sizes)
    ensures StrLess(cands[m], cands[k]) ==> LexLess(split(cands[k]).value.sizes, split(cands[m]).value.sizes)
  {
    ProfilesAt(split, cands, m);
    ProfilesAt(split, cands, k);
    if StrLess(cands[m], cands[k]) {
      LexIrreflexive(Codes(cands[k]));
      LexAsymmetric(Codes(cands[m]), Codes(cands[k]));
    }
  }

  lemma {:induction false} FirstMinimalBest(split: Splitter, cands: seq<string>, k: nat)
    requires forall i :: 0 <= i < |cands| ==> split(cands[i]).Some?
    requires StrictlyIncreasing(cands) && k < |cands|
    requires FirstMinimal(Profiles(split, cands), k, |cands|)
    ensures forall c :: c in cands ==> split(c).Some? && !LexLess(split(c).value.sizes, split(cands[k]).value.sizes)
    ensures forall c :: c in cands && StrLess(c, cands[k]) ==> LexLess(split(cands[k]).value.sizes, split(c).value.sizes)
  {
    forall c | c in cands
      ensures split(c).Some? && !LexLess(split(c).value.sizes, split(cands[k]).value.sizes)
      ensures StrLess(c, cands[k]) ==> LexLess(split(cands[k]).value.sizes, split(c).value.sizes)
    {
      var m :| 0 <= m < |cands| && cands[m] == c;
      FirstMinimalAgainst(split, cands, k, m);
    }
  }

  /** The scan over the sorted candidates of a fully answerable set picks
      the candidate with the smallest profile, the alphabetically first
      among equals. */
  lemma {:induction false} BestChoice(ans: Oracle, poss: set<string>) returns (choice: Choice)
    requires Answerable(ans, poss) && poss != {} && |poss| <= Sentinel
    ensures choice.guess in poss && GetSuccessors(ans, poss, choice.guess) == Some(choice.succ)
    ensures Scan(SplitterFor(ans, poss), SortedElems(poss), 0, None) == Success(Some(choice))
    ensures forall c :: c in poss ==> !LexLess(Profile(ans, poss, c), choice.succ.sizes)
    ensures forall c :: c in poss && StrLess(c, choice.guess) ==> LexLess(choice.succ.sizes, Profile(ans, poss, c))
  {
    var split := SplitterFor(ans, poss);
    var cands := SortedElems(poss);
    ScanReady(ans, poss);
    SortedElemsIncreasing(poss);
    var k := ScanPicksFirstMinimal(split, cands, 0, None, 0);
    choice := Choice(cands[k], split(cands[k]).value);
    FirstMinimalBest(split, cands, k);
  }

  /** Synthesis succeeds on every non-empty set of at most 10^15 candidates
      in which every guess can be answered for every other candidate. */
  lemma {:induction false} BuildSucceeds(ans: Oracle, depth: nat, subject: string, poss: set<string>)
    requires Answerable(ans, poss) && poss != {} && |poss| <= Sentinel
    ensures Build(ans, depth, subject, poss).Success?
    decreases |poss|, 2, 0
  {
    var choice := BestChoice(ans, poss);
    DescendSucceeds(ans, depth, subject, poss, choice);
  }

  lemma {:induction false} DescendSucceeds(ans: Oracle, depth: nat, subject: string, poss: set<string>, choice: Choice)
    requires Answerable(ans, poss) && |poss| <= Sentinel
    requires choice.guess in poss && GetSuccessors(ans, poss, choice.guess) == Some(choice.succ)
    ensures Descend(ans, depth, subject, poss, choice).Success?
    decreases |poss|, 1, 0
  {
    var buckets := choice.succ.buckets;
    var keys := SortedElems(buckets.Keys);
    GetSuccessorsSpec(ans, poss, choice.guess);
    BucketsSmaller(ans, poss, choice.guess, choice.succ);
    SortedBuckets(buckets, |poss|);
    forall k | k in keys
      ensures buckets[k] != {} && Answerable(ans, buckets[k])
    {
      assert buckets[k] <= poss;
      AnswerableSubset(ans, poss, buckets[k]);
    }
    BranchesSucceed(ans, depth + 1, |poss|, buckets, keys);
  }

  lemma {:induction false} BranchesSucceed(ans: Oracle, depth: nat, bound: nat,
                                          buckets: map<string, set<string>>, keys: seq<string>)
    requires forall k :: k in keys ==> k in buckets && |buckets[k]| < bound
    requires forall k :: k in keys ==> buckets[k] != {} && Answerable(ans, buckets[k])
    requires bound <= Sentinel + 1
    ensures Branches(ans, depth, bound, buckets, keys).Success?
    decreases bound, 0, |keys|
  {
    if keys != [] {
      assert keys[0] in keys;
      BuildSucceeds(ans, depth, keys[0], buckets[keys[0]]);
      BranchesSucceed(ans, depth, bound, buckets, keys[1..]);
    }
  }

  /** The guess at the root of a synthesised tree has the smallest profile
      among all candidates (Python's `<` on the sorted bucket sizes), and
      every candidate that sorts before it has a strictly larger profile:
      ties go to the alphabetically first candidate. */
  lemma {:induction false} BuildPicksBest(ans: Oracle, depth: nat, subject: string, poss: set<string>, other: string)
    requires Answerable(ans, poss) && poss != {} && |poss| <= Sentinel && other in poss
    ensures Build(ans, depth, subject, poss).Success?
    ensures var g := Build(ans, depth, subject, poss).value.0.guess;
            g in poss
            && !LexLess(Profile(ans, poss, other), Profile(ans, poss, g))
            && (StrLess(other, g) ==> LexLess(Profile(ans, poss, g), Profile(ans, poss, other)))
  {
    BuildSucceeds(ans, depth, subject, poss);
    var choice := BestChoice(ans, poss);
    assert Build(ans, depth, subject, poss) == Descend(ans, depth, subject, poss, choice);
  }
}

=== FILE: lca.dfy ===
/** Lowest common ancestors (analyse.py, `lca_2nodes` and `lca_species`). */
module Lca {
  import opened Wrappers
  import opened Taxonomy

  /** The shape the LCA walk relies on: node 0 is the root at depth 0, every
      other node hangs one level below its parent, and names are unique (the
      walk compares names, not node identities). */
  predicate Rooted(t: Tree)
  {
    && Connected(t)
    && t.nodes[0].parent.None? && t.nodes[0].depth == 0
    && (forall i :: 0 < i < |t.nodes| ==> t.nodes[t.nodes[i].parent.value].depth + 1 == t.nodes[i].depth)
    && (forall i, j :: 0 <= i < j < |t.nodes| ==> t.nodes[i].name != t.nodes[j].name)
  }

  /** Labels refer to nodes of the tree. */
  predicate SpeciesIn(t: Tree, species: map<string, nat>)
  {
    Wf(t) && forall lbl :: lbl in species ==> species[lbl] < |t.nodes|
  }

  /** `c` is an ancestor of every node of `ns`. */
  ghost predicate CommonAncestor(t: Tree, c: nat, ns: seq<nat>)
    requires Wf(t)
  {
    forall i :: 0 <= i < |ns| ==> ns[i] < |t.nodes| && IsAncestor(t, c, ns[i])
  }

  /** `c` is the lowest common ancestor of `ns`: a common ancestor below
      every other common ancestor. */
  ghost predicate IsLowestCommon(t: Tree, c: nat, ns: seq<nat>)
    requires Wf(t)
  {
    && c < |t.nodes|
    && CommonAncestor(t, c, ns)
    && forall y: nat :: y < |t.nodes| && CommonAncestor(t, y, ns) ==> IsAncestor(t, y, c)
  }

  /** The first loops of `lca_2nodes`: climb from `a` while it is deeper
      than `d`; climbing past a node without parent fails. */
  function Lift(t: Tree, a: nat, d: nat): (r: Option<nat>)
    requires Wf(t) && a < |t.nodes|
    ensures r.Some? ==> r.value <= a && IsAncestor(t, r.value, a) && t.nodes[r.value].depth <= d
    decreases a
  {
    if t.nodes[a].depth <= d then Some(a)
    else
      match t.nodes[a].parent
      case None => None
      case Some(p) => Lift(t, p, d)
  }

  /** The last loop of `lca_2nodes`: climb from both nodes in lockstep until
      their names agree. */
  function Lockstep(t: Tree, a: nat, b: nat): (r: Option<nat>)
    requires Wf(t) && a < |t.nodes| && b < |t.nodes|
    ensures r.Some? ==> r.value <= a && IsAncestor(t, r.value, a)
    decreases a + b
  {
    if t.nodes[a].name == t.nodes[b].name then Some(a)
    else
      match (t.nodes[a].parent, t.nodes[b].parent)
      case (Some(pa), Some(pb)) => Lockstep(t, pa, pb)
      case _ => None
  }

  /** `lca_2nodes(a, b)`; `None` where the source would step past the top
      of the tree. */
  function Lca2(t: Tree, a: nat, b: nat): (r: Option<nat>)
    requires Wf(t) && a < |t.nodes| && b < |t.nodes|
    ensures r.Some? ==> r.value <= a && IsAncestor(t, r.value, a)
  {
    match Lift(t, a, t.nodes[b].depth)
    case None => None
    case Some(a1) =>
      match Lift(t, b, t.nodes[a1].depth)
      case None => None
      case Some(b1) =>
        var r := Lockstep(t, a1, b1);
        if r.Some? then AncestorTransitive(t, r.value, a1, a); r else r
  }

  /** `lca_species(*labels)`: the pairwise LCA folded from the left over the
      labels' nodes; `None` for an empty list or an unknown label. */
  function LcaSpecies(t: Tree, species: map<string, nat>, labels: seq<string>): (r: Option<nat>)
    requires SpeciesIn(t, species)
    ensures r.Some? ==> r.value < |t.nodes|
    decreases |labels|
  {
    if |labels| == 0 then None
    else if |labels| == 1 then
      if labels[0] in species then Some(species[labels[0]]) else None
    else
      match LcaSpecies(t, species, labels[..|labels| - 1])
      case None => None
      case Some(r) =>
        var last := labels[|labels| - 1];
        if last !in species then None else Lca2(t, r, species[last])
  }

  /** An outline whose first node sits at depth 0, whose every later node
      is at most one level deeper than the node before it (and below the
      root's level), and whose names are all different. */
  predicate WellIndented(ps: seq<(nat, string)>)
  {
    && |ps| > 0 && ps[0].0 == 0
    && (forall i :: 0 < i < |ps| ==> 1 <= ps[i].0 <= ps[i - 1].0 + 1)
    && (forall i, j :: 0 <= i < j < |ps| ==> ps[i].1 != ps[j].1)
  }

  /** Such an outline parses to a tree the LCA walk can rely on. */
  lemma {:induction false} OutlineRooted(lines: seq<string>)
    requires WellIndented(Parsed(lines))
    ensures Rooted(ParsePhyloTree(lines))
  {
    var t := ParsePhyloTree(lines);
    forall i | 0 < i < |t.nodes|
      ensures t.nodes[i].parent.Some? && t.nodes[t.nodes[i].parent.value].depth + 1 == t.nodes[i].depth
    {
      OutlineParent(lines, i);
    }
  }

  /** Node `i > 0` of such an outline hangs one level below its parent. */
  lemma {:induction false} OutlineParent(lines: seq<string>, i: nat)
    requires WellIndented(Parsed(lines)) && 0 < i < |Parsed(lines)|
    ensures var t := ParsePhyloTree(lines);
            t.nodes[i].parent.Some? && t.nodes[t.nodes[i].parent.value].depth + 1 == t.nodes[i].depth
  {
    var t := ParsePhyloTree(lines);
    var ps := Parsed(lines);
    // the root is shallower than `i`, so `i` has a parent
    assert t.nodes[0].depth == ps[0].0 < ps[i].0 == t.nodes[i].depth;
    assert ParentIsLatestShallower(t.nodes, i);
    var j := t.nodes[i].parent.value;
    // the node right after the parent is at most one level deeper than it,
    // and, being no earlier than `i`'s slot, at least as deep as `i`
    assert t.nodes[j + 1].depth == ps[j + 1].0 <= ps[j].0 + 1;
    assert t.nodes[j + 1].depth >= t.nodes[i].depth;
  }

  lemma {:induction false} DepthZeroIsRoot(t: Tree, i: nat)
    requires Rooted(t) && i < |t.nodes| && t.nodes[i].depth == 0
    ensures i == 0
  {
  }

  lemma {:induction false} CommonPair(t: Tree, c: nat, a: nat, b: nat)
    requires Wf(t) && a < |t.nodes| && b < |t.nodes|
    ensures CommonAncestor(t, c, [a, b]) <==> IsAncestor(t, c, a) && IsAncestor(t, c, b)
  {
    assert [a, b][0] == a && [a, b][1] == b;
  }

  /** Ancestors are strictly shallower, except the node itself. */
  lemma {:induction false} AncestorDepth(t: Tree, x: nat, a: nat)
    requires Rooted(t) && a < |t.nodes| && IsAncestor(t, x, a)
    ensures x < |t.nodes| && t.nodes[x].depth <= t.nodes[a].depth
    ensures t.nodes[x].depth == t.nodes[a].depth ==> x == a
    decreases a
  {
    AncestorIsEarlier(t, x, a);
    if x != a {
      AncestorDepth(t, x, t.nodes[a].parent.value);
    }
  }

  lemma {:induction false} AncestorAntisymmetric(t: Tree, x: nat, y: nat)
    requires Rooted(t) && x < |t.nodes| && y < |t.nodes|
    requires IsAncestor(t, x, y) && IsAncestor(t, y, x)
    ensures x == y
  {
    AncestorDepth(t, x, y);
    AncestorDepth(t, y, x);
  }

  /** Climbing to depth `d` reaches the ancestor of `a` at that depth (or
      `a` itself when it is not deeper), and every ancestor of `a` at depth
      `d` or above is an ancestor of it. */
  lemma {:induction false} LiftSpec(t: Tree, a: nat, d: nat)
    requires Rooted(t) && a < |t.nodes|
    ensures Lift(t, a, d).Some?
    ensures var a1 := Lift(t, a, d).value;
            && a1 < |t.nodes|
            && IsAncestor(t, a1, a)
            && t.nodes[a1].depth == (if t.nodes[a].depth <= d then t.nodes[a].depth else d)
            && forall x: nat :: IsAncestor(t, x, a) && x < |t.nodes| && t.nodes[x].depth <= d ==> IsAncestor(t, x, a1)
    decreases a
  {
    if t.nodes[a].depth > d {
      if a == 0 {
        assert false;
      }
      var p := t.nodes[a].parent.value;
      LiftSpec(t, p, d);
      var a1 := Lift(t, p, d).value;
      forall x: nat | IsAncestor(t, x, a) && x < |t.nodes| && t.nodes[x].depth <= d
        ensures IsAncestor(t, x, a1)
      {
      }
    }
  }

  /** From two nodes at equal depth, the lockstep climb stops at their
      lowest common ancestor. */
  lemma {:induction false} LockstepSpec(t: Tree, a: nat, b: nat)
    requires Rooted(t) && a < |t.nodes| && b < |t.nodes|
    requires t.nodes[a].depth == t.nodes[b].depth
    ensures Lockstep(t, a, b).Some?
    ensures IsLowestCommon(t, Lockstep(t, a, b).value, [a, b])
    decreases a + b
  {
    if t.nodes[a].name == t.nodes[b].name {
      assert a == b;
      CommonPair(t, a, a, b);
      forall y: nat | y < |t.nodes| && CommonAncestor(t, y, [a, b])
        ensures IsAncestor(t, y, a)
      {
        CommonPair(t, y, a, b);
      }
    } else {
      if a == 0 || b == 0 {
        DepthZeroIsRoot(t, a);
        DepthZeroIsRoot(t, b);
        assert false;
      }
      var pa := t.nodes[a].parent.value;
      var pb := t.nodes[b].parent.value;
      LockstepSpec(t, pa, pb);
      var c := Lockstep(t, pa, pb).value;
      CommonPair(t, c, pa, pb);
      CommonPair(t, c, a, b);
      forall y: nat | y < |t.nodes| && CommonAncestor(t, y, [a, b])
        ensures IsAncestor(t, y, c)
      {
        CommonPair(t, y, a, b);
        if y == a {
          AncestorDepth(t, a, b);
        } else if y == b {
          AncestorDepth(t, b, a);
        } else {
          CommonPair(t, y, pa, pb);
        }
      }
    }
  }

  /** The two climbs of `lca_2nodes` bring both nodes to the same depth,
      and every common ancestor of the two nodes is still above both. */
  lemma {:induction false} Lca2Lifts(t: Tree, a: nat, b: nat) returns (a1: nat, b1: nat)
    requires Rooted(t) && a < |t.nodes| && b < |t.nodes|
    ensures a1 < |t.nodes| && b1 < |t.nodes|
    ensures Lca2(t, a, b) == Lockstep(t, a1, b1)
    ensures t.nodes[a1].depth == t.nodes[b1].depth
    ensures IsAncestor(t, a1, a) && IsAncestor(t, b1, b)
    ensures forall y: nat :: y < |t.nodes| && IsAncestor(t, y, a) && IsAncestor(t, y, b) ==>
              IsAncestor(t, y, a1) && IsAncestor(t, y, b1)
  {
    LiftSpec(t, a, t.nodes[b].depth);
    a1 := Lift(t, a, t.nodes[b].depth).value;
    LiftSpec(t, b, t.nodes[a1].depth);
    b1 := Lift(t, b, t.nodes[a1].depth).value;
    forall y: nat | y < |t.nodes| && IsAncestor(t, y, a) && IsAncestor(t, y, b)
      ensures IsAncestor(t, y, a1) && IsAncestor(t, y, b1)
    {
      AncestorDepth(t, y, a);
      AncestorDepth(t, y, b);
    }
  }

  /** `lca_2nodes` on a rooted tree never fails and returns the lowest
      common ancestor. */
  lemma {:induction false} Lca2Correct(t: Tree, a: nat, b: nat)
    requires Rooted(t) && a < |t.nodes| && b < |t.nodes|
    ensures Lca2(t, a, b).Some?
    ensures IsLowestCommon(t, Lca2(t, a, b).value, [a, b])
  {
    var a1, b1 := Lca2Lifts(t, a, b);
    LockstepSpec(t, a1, b1);
    var c := Lockstep(t, a1, b1).value;
    assert CommonAncestor(t, c, [a, b]) by {
      CommonPair(t, c, a1, b1);
      AncestorTransitive(t, c, a1, a);
      AncestorTransitive(t, c, b1, b);
      CommonPair(t, c, a, b);
    }
    forall y: nat | y < |t.nodes| && CommonAncestor(t, y, [a, b])
      ensures IsAncestor(t, y, c)
    {
      CommonPair(t, y, a, b);
      CommonPair(t, y, a1, b1);
    }
  }

  /** A set of nodes has at most one lowest common ancestor. */
  lemma {:induction false} LowestCommonUnique(t: Tree, c1: nat, c2: nat, ns: seq<nat>)
    requires Rooted(t)
    requires IsLowestCommon(t, c1, ns) && IsLowestCommon(t, c2, ns)
    ensures c1 == c2
  {
    AncestorAntisymmetric(t, c1, c2);
  }

  lemma {:induction false} Lca2Symmetric(t: Tree, a: nat, b: nat)
    requires Rooted(t) && a < |t.nodes| && b < |t.nodes|
    ensures Lca2(t, a, b) == Lca2(t, b, a)
  {
    Lca2Correct(t, a, b);
    Lca2Correct(t, b, a);
    var c := Lca2(t, b, a).value;
    CommonPair(t, c, b, a);
    CommonPair(t, c, a, b);
    forall y: nat | y < |t.nodes| && CommonAncestor(t, y, [a, b])
      ensures IsAncestor(t, y, c)
    {
      CommonPair(t, y, a, b);
      CommonPair(t, y, b, a);
    }
    LowestCommonUnique(t, Lca2(t, a, b).value, c, [a, b]);
  }

  /** Both climbs stop at once and the names agree: on any tree. */
  lemma {:induction false} Lca2Self(t: Tree, a: nat)
    requires Wf(t) && a < |t.nodes|
    ensures Lca2(t, a, a) == Some(a)
  {
  }

  lemma {:induction false} Lca2Root(t: Tree, a: nat)
    requires Rooted(t) && a < |t.nodes|
    ensures Lca2(t, 0, a) == Some(0)
  {
    Lca2Correct(t, 0, a);
    var c := Lca2(t, 0, a).value;
    RootAncestorOfAll(t, a);
    CommonPair(t, 0, 0, a);
    CommonPair(t, c, 0, a);
    AncestorAntisymmetric(t, 0, c);
  }

  /** Folding pairwise LCAs in either grouping gives the same node. */
  lemma {:induction false} Lca2Associative(t: Tree, a: nat, b: nat, c: nat)
    requires Rooted(t) && a < |t.nodes| && b < |t.nodes| && c < |t.nodes|
    ensures Lca2(t, a, b).Some? && Lca2(t, b, c).Some?
    ensures Lca2(t, Lca2(t, a, b).value, c) == Lca2(t, a, Lca2(t, b, c).value)
  {
    Lca2Correct(t, a, b);
    Lca2Correct(t, b, c);
    var ab := Lca2(t, a, b).value;
    var bc := Lca2(t, b, c).value;
    Lca2Correct(t, ab, c);
    Lca2Correct(t, a, bc);
    var l := Lca2(t, ab, c).value;
    var r := Lca2(t, a, bc).value;
    CommonPair(t, l, ab, c);
    CommonPair(t, r, a, bc);
    CommonPair(t, ab, a, b);
    CommonPair(t, bc, b, c);
    // l is a common ancestor of a, b and c, hence of a and bc
    AncestorTransitive(t, l, ab, a);
    AncestorTransitive(t, l, ab, b);
    CommonPair(t, l, b, c);
    CommonPair(t, l, a, bc);
    // r is a common ancestor of a, b and c, hence of ab and c
    AncestorTransitive(t, r, bc, b);
    AncestorTransitive(t, r, bc, c);
    CommonPair(t, r, a, b);
    CommonPair(t, r, ab, c);
    AncestorAntisymmetric(t, l, r);
  }

  /** The nodes the labels are bound to. */
  function NodesOf(species: map<string, nat>, labels: seq<string>): (ns: seq<nat>)
    requires forall i :: 0 <= i < |labels| ==> labels[i] in species
    ensures |ns| == |labels|
    ensures forall i :: 0 <= i < |labels| ==> ns[i] == species[labels[i]]
  {
    seq(|labels|, i requires 0 <= i < |labels| => species[labels[i]])
  }

  /** `lca_species` on known labels of a rooted tree returns the lowest
      common ancestor of all their nodes; it fails exactly on an empty list
      or an unknown label. */
  lemma {:induction false} LcaSpeciesCorrect(t: Tree, species: map<string, nat>, labels: seq<string>)
    requires Rooted(t) && SpeciesIn(t, species)
    ensures LcaSpecies(t, species, labels).Some? <==>
              |labels| > 0 && forall i :: 0 <= i < |labels| ==> labels[i] in species
    ensures LcaSpecies(t, species, labels).Some? ==>
              IsLowestCommon(t, LcaSpecies(t, species, labels).value, NodesOf(species, labels))
  {
    if |labels| > 0 && forall i :: 0 <= i < |labels| ==> labels[i] in species {
      LcaSpeciesKnown(t, species, labels);
    } else if |labels| > 0 {
      var i :| 0 <= i < |labels| && labels[i] !in species;
      LcaSpeciesUnknown(t, species, labels, i);
    }
  }

  /** One unknown label anywhere in the list makes `lca_species` fail. */
  lemma {:induction false} LcaSpeciesUnknown(t: Tree, species: map<string, nat>, labels: seq<string>, i: nat)
    requires SpeciesIn(t, species) && i < |labels| && labels[i] !in species
    ensures LcaSpecies(t, species, labels).None?
    decreases |labels|
  {
    if |labels| > 1 {
      var prefix := labels[..|labels| - 1];
      if i < |prefix| {
        assert prefix[i] == labels[i];
        LcaSpeciesUnknown(t, species, prefix, i);
      }
    }
  }

  /** On known labels the fold succeeds with the lowest common ancestor. */
  lemma {:induction false} LcaSpeciesKnown(t: Tree, species: map<string, nat>, labels: seq<string>)
    requires Rooted(t) && SpeciesIn(t, species) && |labels| > 0
    requires forall i :: 0 <= i < |labels| ==> labels[i] in species
    ensures LcaSpecies(t, species, labels).Some?
    ensures IsLowestCommon(t, LcaSpecies(t, species, labels).value, NodesOf(species, labels))
    decreases |labels|
  {
    if |labels| == 1 {
      var n := species[labels[0]];
      assert NodesOf(species, labels) == [n];
      assert CommonAncestor(t, n, [n]);
    } else {
      var prefix := labels[..|labels| - 1];
      assert forall i :: 0 <= i < |prefix| ==> prefix[i] == labels[i];
      LcaSpeciesKnown(t, species, prefix);
      LcaFoldStep(t, species, labels);
    }
  }

  /** The nodes of a longer list are those of its prefix and one more. */
  lemma {:induction false} NodesOfSnoc(species: map<string, nat>, labels: seq<string>)
    requires |labels| > 0 && forall i :: 0 <= i < |labels| ==> labels[i] in species
    ensures NodesOf(species, labels) == NodesOf(species, labels[..|labels| - 1]) + [species[labels[|labels| - 1]]]
  {
    var prefix := labels[..|labels| - 1];
    assert forall i :: 0 <= i < |prefix| ==> prefix[i] == labels[i];
  }

  /** The LCA of a list's LCA and one more node is the LCA of the longer
      list. */
  lemma {:induction false} LowestCommonExtend(t: Tree, ns: seq<nat>, r: nat, n: nat, c: nat)
    requires Rooted(t) && r < |t.nodes| && n < |t.nodes|
    requires IsLowestCommon(t, r, ns) && IsLowestCommon(t, c, [r, n])
    ensures IsLowestCommon(t, c, ns + [n])
  {
    var ns1 := ns + [n];
    assert CommonAncestor(t, c, ns1) by {
      CommonPair(t, c, r, n);
      forall i | 0 <= i < |ns1|
        ensures ns1[i] < |t.nodes| && IsAncestor(t, c, ns1[i])
      {
        if i < |ns| {
          assert ns1[i] == ns[i];
          AncestorTransitive(t, c, r, ns[i]);
        }
      }
    }
    forall y: nat | y < |t.nodes| && CommonAncestor(t, y, ns1)
      ensures IsAncestor(t, y, c)
    {
      assert CommonAncestor(t, y, ns) by {
        forall i | 0 <= i < |ns|
          ensures ns[i] < |t.nodes| && IsAncestor(t, y, ns[i])
        {
          assert ns1[i] == ns[i];
        }
      }
      assert IsAncestor(t, y, ns1[|ns|]);
      CommonPair(t, y, r, n);
    }
  }

  /** One step of the fold: the LCA of the prefix's LCA and the last node is
      the LCA of all the nodes. */
  lemma {:induction false} LcaFoldStep(t: Tree, species: map<string, nat>, labels: seq<string>)
    requires Rooted(t) && SpeciesIn(t, species) && |labels| > 1
    requires forall i :: 0 <= i < |labels| ==> labels[i] in species
    requires LcaSpecies(t, species, labels[..|labels| - 1]).Some?
    requires IsLowestCommon(t, LcaSpecies(t, species, labels[..|labels| - 1]).value,
                            NodesOf(species, labels[..|labels| - 1]))
    ensures LcaSpecies(t, species, labels).Some?
    ensures IsLowestCommon(t, LcaSpecies(t, species, labels).value, NodesOf(species, labels))
  {
    var prefix := labels[..|labels| - 1];
    var r := LcaSpecies(t, species, prefix).value;
    var n := species[labels[|labels| - 1]];
    assert LcaSpecies(t, species, labels) == Lca2(t, r, n);
    Lca2Correct(t, r, n);
    NodesOfSnoc(species, labels);
    LowestCommonExtend(t, NodesOf(species, prefix), r, n, Lca2(t, r, n).value);
  }
}

=== FILE: ordering.dfy ===
/** Python's orderings as the analysis uses them: `<` on lists of integers,
    `<` on strings (code point by code point), `sorted(...)` of a set of
    strings and `sorted(..., reverse=True)` of a list of sizes. */
module Ordering {

  /** Python's `a < b` on lists: the first differing element decides, and a
      proper prefix is smaller than the longer list. */
  predicate LexLess(a: seq<int>, b: seq<int>)
    decreases |a|
  {
    if |a| == 0 then |b| > 0
    else if |b| == 0 then false
    else if a[0] != b[0] then a[0] < b[0]
    else LexLess(a[1..], b[1..])
  }

  lemma {:induction false} LexIrreflexive(a: seq<int>)
    ensures !LexLess(a, a)
    decreases |a|
  {
    if |a| > 0 {
      LexIrreflexive(a[1..]);
    }
  }

  lemma {:induction false} LexTransitive(a: seq<int>, b: seq<int>, c: seq<int>)
    requires LexLess(a, b) && LexLess(b, c)
    ensures LexLess(a, c)
    decreases |a|
  {
    if |a| > 0 && a[0] == b[0] && b[0] == c[0] {
      LexTransitive(a[1..], b[1..], c[1..]);
    }
  }

  /** Any two different lists are ordered one way or the other. */
  lemma {:induction false} LexTotal(a: seq<int>, b: seq<int>)
    ensures a == b || LexLess(a, b) || LexLess(b, a)
    decreases |a|
  {
    if |a| > 0 && |b| > 0 && a[0] == b[0] {
      LexTotal(a[1..], b[1..]);
      if a[1..] == b[1..] {
        assert a == [a[0]] + a[1..] && b == [b[0]] + b[1..];
      }
    }
  }

  lemma {:induction false} LexAsymmetric(a: seq<int>, b: seq<int>)
    requires LexLess(a, b)
    ensures !LexLess(b, a)
  {
    if LexLess(b, a) {
      LexTransitive(a, b, a);
      LexIrreflexive(a);
    }
  }

  /** The code points of a string, the sequence Python compares strings by. */
  function Codes(s: string): (r: seq<int>)
    ensures |r| == |s|
    ensures forall i :: 0 <= i < |s| ==> r[i] == s[i] as int
  {
    seq(|s|, i requires 0 <= i < |s| => s[i] as int)
  }

  /** Python's `a < b` on strings. */
  predicate StrLess(a: string, b: string)
  {
    LexLess(Codes(a), Codes(b))
  }

  lemma {:induction false} CodesInjective(a: string, b: string)
    requires Codes(a) == Codes(b)
    ensures a == b
  {
    assert |a| == |b|;
    forall i | 0 <= i < |a|
      ensures a[i] == b[i]
    {
      assert Codes(a)[i] == Codes(b)[i];
    }
  }

  /** Python's string order is a strict total order. */
  lemma {:induction false} StrOrder()
    ensures forall a :: !StrLess(a, a)
    ensures forall a, b, c :: StrLess(a, b) && StrLess(b, c) ==> StrLess(a, c)
    ensures forall a, b :: a == b || StrLess(a, b) || StrLess(b, a)
  {
    forall a: string
      ensures !StrLess(a, a)
    {
      LexIrreflexive(Codes(a));
    }
    forall a: string, b: string, c: string | StrLess(a, b) && StrLess(b, c)
      ensures StrLess(a, c)
    {
      LexTransitive(Codes(a), Codes(b), Codes(c));
    }
    forall a: string, b: string
      ensures a == b || StrLess(a, b) || StrLess(b, a)
    {
      LexTotal(Codes(a), Codes(b));
      if Codes(a) == Codes(b) {
        CodesInjective(a, b);
      }
    }
  }

  /** `m` is the least element of `s` in Python's string order. */
  predicate IsLeast(m: string, s: set<string>)
  {
    m in s && forall y :: y in s ==> m == y || StrLess(m, y)
  }

  lemma {:induction false} LeastExists(s: set<string>)
    requires s != {}
    ensures exists m :: IsLeast(m, s)
    decreases |s|
  {
    var x :| x in s;
    if s == {x} {
      assert IsLeast(x, s);
    } else {
      LeastExists(s - {x});
      var m :| IsLeast(m, s - {x});
      StrOrder();
      if StrLess(m, x) {
        assert IsLeast(m, s);
      } else {
        assert IsLeast(x, s);
      }
    }
  }

  predicate StrictlyIncreasing(xs: seq<string>)
  {
    forall i, j :: 0 <= i < j < |xs| ==> StrLess(xs[i], xs[j])
  }

  lemma {:induction false} LeastUnique(s: set<string>)
    ensures forall m, m' :: IsLeast(m, s) && IsLeast(m', s) ==> m == m'
  {
    forall m, m' | IsLeast(m, s) && IsLeast(m', s)
      ensures m == m'
    {
      if m != m' {
        LexAsymmetric(Codes(m), Codes(m'));
      }
    }
  }

  /** No string occurs twice. */
  predicate Distinct(xs: seq<string>)
  {
    forall i, j :: 0 <= i < j < |xs| ==> xs[i] != xs[j]
  }

  /** Python's `sorted(s)` for a set of strings: its elements, each once;
      `SortedElemsIncreasing` shows they come in increasing order. */
  function SortedElems(s: set<string>): (r: seq<string>)
    ensures |r| == |s|
    ensures forall x :: x in r <==> x in s
    ensures Distinct(r)
    decreases |s|
  {
    if s == {} then []
    else
      LeastExists(s);
      LeastUnique(s);
      var m :| IsLeast(m, s);
      [m] + SortedElems(s - {m})
  }

  lemma {:induction false} SortedElemsIncreasing(s: set<string>)
    ensures StrictlyIncreasing(SortedElems(s))
    decreases |s|
  {
    if s != {} {
      LeastExists(s);
      LeastUnique(s);
      var m :| IsLeast(m, s);
      var rest := SortedElems(s - {m});
      assert SortedElems(s) == [m] + rest;
      SortedElemsIncreasing(s - {m});
      forall j | 0 <= j < |rest|
        ensures StrLess(m, rest[j])
      {
        assert rest[j] in s - {m};
      }
      IncreasingCons(m, rest);
    }
  }

  lemma {:induction false} IncreasingCons(m: string, rest: seq<string>)
    requires StrictlyIncreasing(rest)
    requires forall j :: 0 <= j < |rest| ==> StrLess(m, rest[j])
    ensures StrictlyIncreasing([m] + rest)
  {
    var xs := [m] + rest;
    forall i, j | 0 <= i < j < |xs|
      ensures StrLess(xs[i], xs[j])
    {
      assert xs[j] == rest[j - 1];
      if i > 0 {
        assert xs[i] == rest[i - 1];
      }
    }
  }

  predicate NonIncreasing(xs: seq<int>)
  {
    forall i, j :: 0 <= i < j < |xs| ==> xs[i] >= xs[j]
  }

  function SeqSum(xs: seq<int>): int
  {
    if xs == [] then 0 else xs[0] + SeqSum(xs[1..])
  }

  /** No entry of a list of sizes exceeds their sum. */
  lemma {:induction false} EntryBelowSum(xs: seq<nat>, i: nat)
    requires i < |xs|
    ensures xs[i] <= SeqSum(xs)
  {
    SumNonNegative(xs[1..]);
    if i > 0 {
      EntryBelowSum(xs[1..], i - 1);
    }
  }

  lemma {:induction false} SumNonNegative(xs: seq<nat>)
    ensures SeqSum(xs) >= 0
  {
    if xs != [] {
      SumNonNegative(xs[1..]);
    }
  }

  function InsertDesc(x: nat, xs: seq<nat>): (r: seq<nat>)
    requires NonIncreasing(xs)
    ensures NonIncreasing(r)
    ensures multiset(r) == multiset(xs) + multiset{x}
    ensures SeqSum(r) == x + SeqSum(xs)
  {
    if xs == [] || x >= xs[0] then
      ConsNonIncreasing(x, xs);
      [x] + xs
    else
      var rest := InsertDesc(x, xs[1..]);
      assert xs == [xs[0]] + xs[1..];
      HeadDominates(xs[0], x, xs[1..], rest);
      ConsNonIncreasing(xs[0], rest);
      [xs[0]] + rest
  }

  lemma {:induction false} ConsNonIncreasing(h: int, xs: seq<int>)
    requires NonIncreasing(xs) && (xs == [] || h >= xs[0])
    ensures NonIncreasing([h] + xs)
  {
  }

  /** A value at least `x` and every element of `xs` is at least every
      element of a list holding `xs` and `x`. */
  lemma {:induction false} HeadDominates(h: int, x: int, xs: seq<int>, rest: seq<int>)
    requires x <= h && NonIncreasing([h] + xs)
    requires multiset(rest) == multiset(xs) + multiset{x}
    ensures forall j :: 0 <= j < |rest| ==> rest[j] <= h
  {
    forall j | 0 <= j < |rest|
      ensures rest[j] <= h
    {
      assert rest[j] in multiset(rest);
      if rest[j] != x {
        assert rest[j] in multiset(xs);
        var k :| 0 <= k < |xs| && xs[k] == rest[j];
        assert ([h] + xs)[0] == h && ([h] + xs)[k + 1] == xs[k];
      }
    }
  }

  /** Python's `sorted(xs, reverse=True)` for a list of sizes. */
  function SortDesc(xs: seq<nat>): (r: seq<nat>)
    ensures NonIncreasing(r)
    ensures multiset(r) == multiset(xs)
    ensures SeqSum(r) == SeqSum(xs)
  {
    if xs == [] then []
    else
      assert xs == [xs[0]] + xs[1..];
      InsertDesc(xs[0], SortDesc(xs[1..]))
  }
}

=== FILE: outline.dfy ===
/** Reading one line of the indented outline (analyse.py, `calculate_depth`):
    a bare line is the root, an indented line carries a two-character branch
    marker whose column gives the depth. */
module Outline {
  import opened Wrappers

  /** Python's `str.isspace()` for one character: the characters that
      `str.strip()` removes. */
  predicate IsSpace(c: char)
  {
    || ('\t' <= c <= '\r')
    || ('\U{1C}' <= c <= ' ')
    || c == '\U{85}' || c == '\U{A0}' || c == '\U{1680}'
    || ('\U{2000}' <= c <= '\U{200A}')
    || c == '\U{2028}' || c == '\U{2029}' || c == '\U{202F}'
    || c == '\U{205F}' || c == '\U{3000}'
  }

  /** The number of whitespace characters at the start of `s`. */
  function LeadingSpace(s: string): (n: nat)
    ensures n <= |s|
  {
    if |s| > 0 && IsSpace(s[0]) then 1 + LeadingSpace(s[1..]) else 0
  }

  /** The leading run is whitespace and is maximal. */
  lemma {:induction false} LeadingSpaceSpec(s: string)
    ensures forall k :: 0 <= k < LeadingSpace(s) ==> IsSpace(s[k])
    ensures LeadingSpace(s) < |s| ==> !IsSpace(s[LeadingSpace(s)])
  {
    if |s| > 0 && IsSpace(s[0]) {
      LeadingSpaceSpec(s[1..]);
      forall k | 1 <= k < LeadingSpace(s)
        ensures IsSpace(s[k])
      {
        assert s[k] == s[1..][k - 1];
      }
      if LeadingSpace(s) < |s| {
        assert s[LeadingSpace(s)] == s[1..][LeadingSpace(s[1..])];
      }
    }
  }

  /** The number of whitespace characters at the end of `s`. */
  function TrailingSpace(s: string): (n: nat)
    ensures n <= |s|
  {
    if |s| > 0 && IsSpace(s[|s| - 1]) then 1 + TrailingSpace(s[..|s| - 1]) else 0
  }

  /** The trailing run is whitespace and is maximal. */
  lemma {:induction false} TrailingSpaceSpec(s: string)
    ensures forall k :: |s| - TrailingSpace(s) <= k < |s| ==> IsSpace(s[k])
    ensures TrailingSpace(s) < |s| ==> !IsSpace(s[|s| - TrailingSpace(s) - 1])
  {
    if |s| > 0 && IsSpace(s[|s| - 1]) {
      var front := s[..|s| - 1];
      TrailingSpaceSpec(front);
      forall k | |s| - TrailingSpace(s) <= k < |s| - 1
        ensures IsSpace(s[k])
      {
        assert s[k] == front[k];
      }
      if TrailingSpace(s) < |s| {
        assert s[|s| - TrailingSpace(s) - 1] == front[|front| - TrailingSpace(front) - 1];
      }
    }
  }

  /** `r` is the slice of `s` starting at `i` and only whitespace of `s`
      lies outside it. */
  predicate SliceBetweenSpace(s: string, i: nat, r: string)
  {
    && i + |r| <= |s| && r == s[i..i + |r|]
    && (forall k :: 0 <= k < i ==> IsSpace(s[k]))
    && (forall k :: i + |r| <= k < |s| ==> IsSpace(s[k]))
  }

  /** Python's `s.strip()`: the part of `s` between its leading and its
      trailing whitespace. */
  function Strip(s: string): string
  {
    var rest := s[LeadingSpace(s)..];
    rest[..|rest| - TrailingSpace(rest)]
  }

  /** The strip is empty exactly on all-whitespace text; otherwise it starts
      and ends with non-whitespace, and only whitespace was cut off. */
  lemma {:induction false} StripSpec(s: string)
    ensures var r := Strip(s);
            && (r == [] <==> forall k :: 0 <= k < |s| ==> IsSpace(s[k]))
            && (r != [] ==> !IsSpace(r[0]) && !IsSpace(r[|r| - 1]))
            && exists i :: SliceBetweenSpace(s, i, r)
  {
    var lead := LeadingSpace(s);
    var rest := s[lead..];
    var r := Strip(s);
    LeadingSpaceSpec(s);
    TrailingSpaceSpec(rest);
    StripKeepsFirst(s);
    assert r == s[lead..lead + |r|];
    forall k | lead + |r| <= k < |s|
      ensures IsSpace(s[k])
    {
      assert rest[k - lead] == s[k];
    }
    assert SliceBetweenSpace(s, lead, r);
    if r != [] {
      assert r[0] == s[lead];
      assert r[|r| - 1] == rest[|rest| - TrailingSpace(rest) - 1];
    }
  }

  /** Past the leading whitespace, the first character is not whitespace,
      so the trailing whitespace cannot swallow the rest. */
  lemma {:induction false} StripKeepsFirst(s: string)
    ensures var rest := s[LeadingSpace(s)..];
            LeadingSpace(s) < |s| ==> TrailingSpace(rest) < |rest|
  {
    var lead := LeadingSpace(s);
    if lead < |s| {
      var rest := s[lead..];
      LeadingSpaceSpec(s);
      TrailingSpaceSpec(rest);
      assert rest[0] == s[lead];
    }
  }

  /** A string with no whitespace at either end is its own strip. */
  lemma {:induction false} StripTrimmed(s: string)
    requires s != [] && !IsSpace(s[0]) && !IsSpace(s[|s| - 1])
    ensures Strip(s) == s
  {
    assert LeadingSpace(s) == 0;
    assert TrailingSpace(s) == 0;
    assert s[0..][..|s|] == s;
  }

  /** The outline's branch marker, `+-` or `\-`, starts at column `i`. */
  predicate IsMarkerAt(line: string, i: nat)
  {
    i + 1 < |line| && (line[i] == '+' || line[i] == '\\') && line[i + 1] == '-'
  }

  /** The first marker column at or after `from`, scanning left to right. */
  function FindMarker(line: string, from: nat): (r: Option<nat>)
    ensures r.Some? ==> from <= r.value && IsMarkerAt(line, r.value)
                        && forall q :: from <= q < r.value ==> !IsMarkerAt(line, q)
    ensures r.None? ==> forall q :: from <= q ==> !IsMarkerAt(line, q)
    decreases |line| - from
  {
    if from + 1 >= |line| then None
    else if IsMarkerAt(line, from) then Some(from)
    else FindMarker(line, from + 1)
  }

  /** The line starts with a space or a tree-drawing character. */
  predicate StartsIndented(line: string)
  {
    |line| > 0 && (line[0] == ' ' || line[0] == '|' || line[0] == '+' || line[0] == '\\')
  }

  /** Python's `p // 2` on a column number: the number of whole two-column
      steps in `p`. */
  function Half(p: nat): (h: nat)
    ensures 2 * h <= p < 2 * h + 2
  {
    if p < 2 then 0 else 1 + Half(p - 2)
  }

  /** `(depth, name)` of one outline line, as `calculate_depth` computes it. */
  function CalculateDepth(line: string): (nat, string)
  {
    if !StartsIndented(line) then (0, Strip(line))
    else
      match FindMarker(line, 0)
      case None => (0, "")
      case Some(p) => (Half(p) + 1, Strip(line[p + 2..]))
  }

  /** A bare line is the root, named by the whole line stripped; an indented
      line without a marker yields no name; otherwise the first marker at
      column `p` gives depth `p // 2 + 1` and the stripped text after it. */
  lemma {:induction false} CalculateDepthSpec(line: string)
    ensures var r := CalculateDepth(line);
            && (!StartsIndented(line) ==> r == (0, Strip(line)))
            && (StartsIndented(line) && (forall q: nat :: !IsMarkerAt(line, q)) ==> r == (0, ""))
            && (StartsIndented(line) && (exists q: nat :: IsMarkerAt(line, q)) ==>
                  r.0 >= 1 &&
                  exists p: nat :: IsMarkerAt(line, p) && (forall q: nat :: q < p ==> !IsMarkerAt(line, q))
                              && r.0 == Half(p) + 1 && r.1 == Strip(line[p + 2..]))
  {
  }

  /** An indented line whose first marker sits at column `p`. */
  lemma {:induction false} MarkedDepth(line: string, p: nat)
    requires StartsIndented(line) && FindMarker(line, 0) == Some(p)
    ensures p + 2 <= |line|
    ensures CalculateDepth(line) == (Half(p) + 1, Strip(line[p + 2..]))
  {
  }

  /** Writes a node as an outline line: `indent` columns of spaces and
      vertical bars, then the marker glyph, a dash and the name. */
  function Render(indent: string, glyph: char, name: string): string
  {
    indent + [glyph, '-'] + name
  }

  predicate IsIndent(indent: string)
  {
    forall k :: 0 <= k < |indent| ==> indent[k] == ' ' || indent[k] == '|'
  }

  /** The first marker of a rendered line is the one written after the
      indentation. */
  lemma {:induction false} RenderMarker(indent: string, glyph: char, name: string)
    requires IsIndent(indent)
    requires glyph == '+' || glyph == '\\'
    ensures StartsIndented(Render(indent, glyph, name))
    ensures FindMarker(Render(indent, glyph, name), 0) == Some(|indent|)
  {
    var line := Render(indent, glyph, name);
    var p := |indent|;
    assert line[p] == glyph && line[p + 1] == '-';
    assert IsMarkerAt(line, p);
    assert line[0] == (if p == 0 then glyph else indent[0]);
    forall q: nat | q < p
      ensures !IsMarkerAt(line, q)
    {
      assert line[q] == indent[q];
    }
  }

  /** Reading back a rendered line gives the depth and name it was written
      with, two columns per level. */
  lemma {:induction false} RenderRoundTrip(indent: string, glyph: char, name: string, depth: nat)
    requires IsIndent(indent) && |indent| == 2 * (depth - 1) && depth >= 1
    requires glyph == '+' || glyph == '\\'
    requires name != [] && !IsSpace(name[0]) && !IsSpace(name[|name| - 1])
    ensures CalculateDepth(Render(indent, glyph, name)) == (depth, name)
  {
    var line := Render(indent, glyph, name);
    var p := |indent|;
    RenderMarker(indent, glyph, name);
    MarkedDepth(line, p);
    assert line[p + 2..] == name;
    StripTrimmed(name);
  }

  /** A bare root line reads back as depth 0 with its own text. */
  lemma {:induction false} RootRoundTrip(name: string)
    requires name != [] && !IsSpace(name[0]) && !IsSpace(name[|name| - 1])
    requires name[0] != '|' && name[0] != '+' && name[0] != '\\'
    ensures CalculateDepth(name) == (0, name)
  {
    StripTrimmed(name);
  }
}

=== FILE: strategy.dfy ===
/** What the decision tree `build_decision_tree` prints means as a strategy
    for the guessing game, and what its returned number counts. */
module Strategy {
  import opened Wrappers
  import opened Ordering
  import opened Sums
  import opened Decision

  /** The position of the first branch labelled `o`, or `|bs|` if none is. */
  function FindBranch(bs: seq<Branch>, o: string): (i: nat)
    ensures i <= |bs|
    ensures i < |bs| ==> bs[i].outcome == o
    ensures forall j :: 0 <= j < i ==> bs[j].outcome != o
  {
    if bs == [] then 0
    else if bs[0].outcome == o then 0
    else
      var i := 1 + FindBranch(bs[1..], o);
      assert forall j :: 1 <= j < i ==> bs[j] == bs[1..][j - 1];
      i
  }

  /** Playing the tree against the hidden species `secret`: ask the guess at
      the current node; if it is not the secret, follow the branch labelled
      with the answer. The number of guesses made, or `None` if the play
      gets stuck (no answer, or no branch for it). */
  function Play(ans: Oracle, d: DTree, secret: string): Option<nat>
    decreases d
  {
    if d.guess == secret then Some(1)
    else
      match ans(d.guess, secret)
      case None => None
      case Some(o) =>
        var i := FindBranch(d.branches, o);
        if i == |d.branches| then None
        else
          match Play(ans, d.branches[i].next, secret)
          case None => None
          case Some(n) => Some(n + 1)
  }

  /** Every guess the tree can make, once per node. */
  function Guesses(d: DTree): multiset<string>
    decreases d, 1
  {
    multiset{d.guess} + GuessesIn(d.branches)
  }

  function GuessesIn(bs: seq<Branch>): multiset<string>
    decreases bs, 0
  {
    if bs == [] then multiset{} else Guesses(bs[0].next) + GuessesIn(bs[1..])
  }

  /** The cost of one secret when the tree is entered at level `depth`. */
  ghost function CostFn(ans: Oracle, depth: int, d: DTree): string -> int
  {
    s => depth + Play(ans, d, s).GetOr(0)
  }

  /** The total cost of the secrets in `poss`. */
  ghost function TreeCost(ans: Oracle, depth: int, d: DTree, poss: set<string>): int
  {
    SetSum(poss, CostFn(ans, depth, d))
  }

  /** The cost of the subtrees `bs`, each over its own bucket. */
  ghost function BranchCost(ans: Oracle, depth: int, buckets: map<string, set<string>>,
                            keys: seq<string>, bs: seq<Branch>): int
    requires |bs| == |keys| && forall k :: k in keys ==> k in buckets
  {
    if keys == [] then 0
    else TreeCost(ans, depth, bs[0].next, buckets[keys[0]])
         + BranchCost(ans, depth, buckets, keys[1..], bs[1..])
  }

  /** The buckets named by `keys`, counted together. */
  ghost function BucketGuesses(buckets: map<string, set<string>>, keys: seq<string>): multiset<string>
    requires forall k :: k in keys ==> k in buckets
  {
    if keys == [] then multiset{} else multiset(buckets[keys[0]]) + BucketGuesses(buckets, keys[1..])
  }

  lemma {:induction false} MultisetOfUnion(a: set<string>, b: set<string>)
    requires a !! b
    ensures multiset(a + b) == multiset(a) + multiset(b)
  {
    assert forall x :: multiset(a + b)[x] == (multiset(a) + multiset(b))[x];
  }

  lemma {:induction false} BucketGuessesUnion(buckets: map<string, set<string>>, keys: seq<string>)
    requires Disjoint(buckets) && Distinct(keys)
    requires forall k :: k in keys ==> k in buckets
    ensures BucketGuesses(buckets, keys) == multiset(UnionOver(buckets, keys))
  {
    if keys != [] {
      BucketGuessesUnion(buckets, keys[1..]);
      FirstBucketApart(buckets, keys);
      MultisetOfUnion(buckets[keys[0]], UnionOver(buckets, keys[1..]));
    }
  }

  /** Playing `d` finds `s` exactly one guess after playing `child` does. */
  ghost predicate OneDeeper(ans: Oracle, d: DTree, child: DTree, s: string)
  {
    Play(ans, child, s).Some? && Play(ans, d, s) == Some(Play(ans, child, s).value + 1)
  }

  /** Each candidate of bucket `keys[i]` is found through branch `bs[i]`. */
  ghost predicate ThroughBranches(ans: Oracle, d: DTree, buckets: map<string, set<string>>,
                                  keys: seq<string>, bs: seq<Branch>)
    requires |bs| == |keys| && forall k :: k in keys ==> k in buckets
  {
    forall i, s :: 0 <= i < |keys| && s in buckets[keys[i]] ==> OneDeeper(ans, d, bs[i].next, s)
  }

  /** A bucket whose candidates are each found one guess after `child`
      finds them costs the same entered at `d` as entered one level deeper at
      `child`. */
  lemma {:induction false} BucketCost(ans: Oracle, depth: int, d: DTree, child: DTree, b: set<string>)
    requires forall s :: s in b ==> OneDeeper(ans, d, child, s)
    ensures TreeCost(ans, depth, d, b) == TreeCost(ans, depth + 1, child, b)
  {
    forall s | s in b
      ensures CostFn(ans, depth, d)(s) == CostFn(ans, depth + 1, child)(s)
    {
      assert OneDeeper(ans, d, child, s);
    }
    SetSumCongruent(b, CostFn(ans, depth, d), CostFn(ans, depth + 1, child));
  }

  lemma {:induction false} TreeCostUnion(ans: Oracle, depth: int, d: DTree, a: set<string>, b: set<string>)
    requires a !! b
    ensures TreeCost(ans, depth, d, a + b) == TreeCost(ans, depth, d, a) + TreeCost(ans, depth, d, b)
  {
    SetSumUnion(a, b, CostFn(ans, depth, d));
  }

  /** Entering a node whose branch `i` covers bucket `keys[i]` costs one more
      guess than entering that branch, so the cost of the union of the
      buckets is the branch cost one level deeper. */
  lemma {:induction false} CostSplit(ans: Oracle, depth: int, d: DTree, buckets: map<string, set<string>>,
                                     keys: seq<string>, bs: seq<Branch>)
    requires Disjoint(buckets) && Distinct(keys) && |bs| == |keys|
    requires forall k :: k in keys ==> k in buckets
    requires ThroughBranches(ans, d, buckets, keys, bs)
    ensures TreeCost(ans, depth, d, UnionOver(buckets, keys)) == BranchCost(ans, depth + 1, buckets, keys, bs)
  {
    if keys != [] {
      FirstBucketApart(buckets, keys);
      TreeCostUnion(ans, depth, d, buckets[keys[0]], UnionOver(buckets, keys[1..]));
      assert forall s :: s in buckets[keys[0]] ==> OneDeeper(ans, d, bs[0].next, s);
      BucketCost(ans, depth, d, bs[0].next, buckets[keys[0]]);
      ShiftBranches(ans, d, buckets, keys, bs);
      CostSplit(ans, depth, d, buckets, keys[1..], bs[1..]);
    }
  }

  lemma {:induction false} ShiftBranches(ans: Oracle, d: DTree, buckets: map<string, set<string>>, keys: seq<string>, bs: seq<Branch>)
    requires |bs| == |keys| && keys != []
    requires forall k :: k in keys ==> k in buckets
    requires ThroughBranches(ans, d, buckets, keys, bs)
    ensures ThroughBranches(ans, d, buckets, keys[1..], bs[1..])
  {
    forall i, s | 0 <= i < |keys| - 1 && s in buckets[keys[1..][i]]
      ensures OneDeeper(ans, d, bs[1..][i].next, s)
    {
      assert keys[1..][i] == keys[i + 1] && bs[1..][i] == bs[i + 1];
    }
  }

  /** The guess is asked first, at level `depth`. */
  lemma {:induction false} GuessCost(ans: Oracle, depth: int, d: DTree, poss: set<string>)
    requires d.guess in poss
    ensures TreeCost(ans, depth, d, poss) == depth + 1 + TreeCost(ans, depth, d, poss - {d.guess})
  {
    SetSumRemove(poss, d.guess, CostFn(ans, depth, d));
  }

  /** A candidate in bucket `keys[i]` is found one guess after its branch
      finds it. */
  lemma {:induction false} PlayThroughBranch(ans: Oracle, poss: set<string>, guess: string, buckets: map<string, set<string>>,
                          keys: seq<string>, d: DTree, i: nat, s: string)
    requires SplitsByAnswer(ans, poss, guess, buckets) && Distinct(keys)
    requires d.guess == guess && |d.branches| == |keys|
    requires forall j :: 0 <= j < |keys| ==> d.branches[j].outcome == keys[j]
    requires i < |keys| && keys[i] in buckets && s in buckets[keys[i]]
    requires Play(ans, d.branches[i].next, s).Some?
    ensures Play(ans, d, s) == Some(Play(ans, d.branches[i].next, s).value + 1)
  {
    assert s != guess;
    assert ans(guess, s) == Some(keys[i]);
    assert FindBranch(d.branches, keys[i]) == i;
  }

  /** What `build_decision_tree` guarantees of the tree `d` and number
      `total` it produces for the candidates `poss` at level `depth`: every
      candidate is guessed at exactly one node, playing the tree identifies
      every candidate, and `total` is the sum over the candidates of `depth`
      plus the number of guesses needed. */
  ghost predicate TreeFacts(ans: Oracle, depth: int, poss: set<string>, d: DTree, total: int)
  {
    && Guesses(d) == multiset(poss)
    && (forall s :: s in poss ==> Play(ans, d, s).Some?)
    && total == TreeCost(ans, depth, d, poss)
  }

  /** The same for the subtrees of one node, one per bucket in `keys`
      order. */
  ghost predicate BranchesFacts(ans: Oracle, depth: int, buckets: map<string, set<string>>,
                                keys: seq<string>, bs: seq<Branch>, total: int)
    requires forall k :: k in keys ==> k in buckets
  {
    && |bs| == |keys|
    && (forall i :: 0 <= i < |keys| ==> bs[i].outcome == keys[i])
    && (forall i, s :: 0 <= i < |keys| && s in buckets[keys[i]] ==> Play(ans, bs[i].next, s).Some?)
    && GuessesIn(bs) == BucketGuesses(buckets, keys)
    && total == BranchCost(ans, depth, buckets, keys, bs)
  }

  /** Prepending the subtree of the first bucket keeps the facts. */
  lemma {:induction false} BranchesCons(ans: Oracle, depth: int, buckets: map<string, set<string>>, keys: seq<string>,
                     child: DTree, n: int, rest: seq<Branch>, m: int, bs: seq<Branch>, total: int)
    requires keys != [] && forall k :: k in keys ==> k in buckets
    requires TreeFacts(ans, depth, buckets[keys[0]], child, n)
    requires BranchesFacts(ans, depth, buckets, keys[1..], rest, m)
    requires bs == [Branch(keys[0], child)] + rest && total == n + m
    ensures BranchesFacts(ans, depth, buckets, keys, bs, total)
  {
    assert bs[1..] == rest;
    forall i | 0 < i < |keys|
      ensures bs[i] == rest[i - 1] && keys[i] == keys[1..][i - 1]
    {
    }
  }

  /** A node whose branches follow the sorted answers of a split finds
      every bucket's candidates through that bucket's branch. */
  lemma {:induction false} NodeThrough(ans: Oracle, poss: set<string>, guess: string, buckets: map<string, set<string>>,
                    keys: seq<string>, d: DTree)
    requires SplitsByAnswer(ans, poss, guess, buckets) && ListsKeys(buckets, keys)
    requires d.guess == guess && |d.branches| == |keys|
    requires forall i :: 0 <= i < |keys| ==> d.branches[i].outcome == keys[i]
    requires forall i, s :: 0 <= i < |keys| && s in buckets[keys[i]] ==> Play(ans, d.branches[i].next, s).Some?
    ensures ThroughBranches(ans, d, buckets, keys, d.branches)
  {
    forall i, s | 0 <= i < |keys| && s in buckets[keys[i]]
      ensures OneDeeper(ans, d, d.branches[i].next, s)
    {
      assert keys[i] in keys;
      PlayThroughBranch(ans, poss, guess, buckets, keys, d, i, s);
    }
  }

  /** ... and so identifies every candidate. */
  lemma {:induction false} NodeFinds(ans: Oracle, poss: set<string>, guess: string, buckets: map<string, set<string>>,
                  keys: seq<string>, d: DTree)
    requires SplitsByAnswer(ans, poss, guess, buckets) && ListsKeys(buckets, keys)
    requires d.guess == guess && |d.branches| == |keys|
    requires ThroughBranches(ans, d, buckets, keys, d.branches)
    ensures forall s :: s in poss ==> Play(ans, d, s).Some?
  {
    forall s | s in poss
      ensures Play(ans, d, s).Some?
    {
      if s != guess {
        var k := ans(guess, s).value;
        assert k in keys;
        var i :| 0 <= i < |keys| && keys[i] == k;
        assert OneDeeper(ans, d, d.branches[i].next, s);
      }
    }
  }

  /** The node's cost: one guess for the guess itself, one more for every
      other candidate on top of its branch. */
  lemma {:induction false} NodeCost(ans: Oracle, depth: int, poss: set<string>, guess: string, buckets: map<string, set<string>>,
                 keys: seq<string>, d: DTree, n: int)
    requires guess in poss && SplitsByAnswer(ans, poss, guess, buckets) && ListsKeys(buckets, keys)
    requires d.guess == guess && |d.branches| == |keys|
    requires ThroughBranches(ans, d, buckets, keys, d.branches)
    requires n == BranchCost(ans, depth + 1, buckets, keys, d.branches)
    ensures n + depth + 1 == TreeCost(ans, depth, d, poss)
  {
    SplitDisjoint(ans, poss, guess, buckets);
    SplitUnion(ans, poss, guess, buckets, keys);
    CostSplit(ans, depth, d, buckets, keys, d.branches);
    GuessCost(ans, depth, d, poss);
  }

  /** The node's guesses: its own, and those of the buckets. */
  lemma {:induction false} NodeGuesses(ans: Oracle, poss: set<string>, guess: string, buckets: map<string, set<string>>,
                    keys: seq<string>, d: DTree)
    requires guess in poss && SplitsByAnswer(ans, poss, guess, buckets) && ListsKeys(buckets, keys)
    requires d.guess == guess
    requires GuessesIn(d.branches) == BucketGuesses(buckets, keys)
    ensures Guesses(d) == multiset(poss)
  {
    SplitDisjoint(ans, poss, guess, buckets);
    SplitUnion(ans, poss, guess, buckets, keys);
    BucketGuessesUnion(buckets, keys);
    MultisetOfUnion({guess}, poss - {guess});
    assert {guess} + (poss - {guess}) == poss;
  }

  /** A node whose guess splits `poss` by answer and whose branches satisfy
      their facts one level deeper satisfies the tree facts. */
  lemma {:induction false} NodeFacts(ans: Oracle, depth: int, poss: set<string>, succ: Successors, d: DTree, n: int)
    requires d.guess in poss && GetSuccessors(ans, poss, d.guess) == Some(succ)
    requires forall k :: k in SortedElems(succ.buckets.Keys) ==> k in succ.buckets
    requires BranchesFacts(ans, depth + 1, succ.buckets, SortedElems(succ.buckets.Keys), d.branches, n)
    ensures TreeFacts(ans, depth, poss, d, n + depth + 1)
  {
    var buckets := succ.buckets;
    var keys := SortedElems(buckets.Keys);
    GetSuccessorsSpec(ans, poss, d.guess);
    SortedKeysListed(buckets);
    NodeThrough(ans, poss, d.guess, buckets, keys, d);
    NodeFinds(ans, poss, d.guess, buckets, keys, d);
    NodeCost(ans, depth, poss, d.guess, buckets, keys, d, n);
    NodeGuesses(ans, poss, d.guess, buckets, keys, d);
  }

  /** What a successful `build_decision_tree` guarantees (see `TreeFacts`). */
  lemma {:induction false} BuildCorrect(ans: Oracle, depth: nat, subject: string, poss: set<string>)
    requires Build(ans, depth, subject, poss).Success?
    ensures TreeFacts(ans, depth, poss, Build(ans, depth, subject, poss).value.0,
                      Build(ans, depth, subject, poss).value.1)
    decreases |poss|, 2, 0
  {
    var choice := Scan(SplitterFor(ans, poss), SortedElems(poss), 0, None).value.value;
    DescendCorrect(ans, depth, subject, poss, choice);
  }

  lemma {:induction false} DescendCorrect(ans: Oracle, depth: nat, subject: string, poss: set<string>, choice: Choice)
    requires choice.guess in poss && GetSuccessors(ans, poss, choice.guess) == Some(choice.succ)
    requires Descend(ans, depth, subject, poss, choice).Success?
    ensures TreeFacts(ans, depth, poss, Descend(ans, depth, subject, poss, choice).value.0,
                      Descend(ans, depth, subject, poss, choice).value.1)
    decreases |poss|, 1, 0
  {
    var buckets := choice.succ.buckets;
    var keys := SortedElems(buckets.Keys);
    DescendUnfold(ans, depth, subject, poss, choice);
    BranchesCorrect(ans, depth + 1, |poss|, buckets, keys);
    var r := Branches(ans, depth + 1, |poss|, buckets, keys).value;
    NodeFacts(ans, depth, poss, choice.succ, Descend(ans, depth, subject, poss, choice).value.0, r.1);
  }

  lemma {:induction false} BranchesCorrect(ans: Oracle, depth: nat, bound: nat,
                                           buckets: map<string, set<string>>, keys: seq<string>)
    requires forall k :: k in keys ==> k in buckets && |buckets[k]| < bound
    requires Branches(ans, depth, bound, buckets, keys).Success?
    ensures BranchesFacts(ans, depth, buckets, keys, Branches(ans, depth, bound, buckets, keys).value.0,
                          Branches(ans, depth, bound, buckets, keys).value.1)
    decreases bound, 0, |keys|
  {
    if keys == [] {
      assert Branches(ans, depth, bound, buckets, keys).value == ([], 0);
    } else {
      var first := Build(ans, depth, keys[0], buckets[keys[0]]);
      var others := Branches(ans, depth, bound, buckets, keys[1..]);
      BranchesUnfold(ans, depth, bound, buckets, keys);
      BuildCorrect(ans, depth, keys[0], buckets[keys[0]]);
      BranchesCorrect(ans, depth, bound, buckets, keys[1..]);
      var r := Branches(ans, depth, bound, buckets, keys).value;
      BranchesCons(ans, depth, buckets, keys, first.value.0, first.value.1, others.value.0, others.value.1, r.0, r.1);
    }
  }
}

=== FILE: sums.dfy ===
/** Sums of a quantity over a finite set, used to state what the decision
    tree's guess count adds up to. */
module Sums {

  ghost function SetSum<T>(s: set<T>, f: T -> int): int
    decreases |s|
  {
    if s == {} then 0
    else
      var x :| x in s;
      f(x) + SetSum(s - {x}, f)
  }

  /** The sum does not depend on which element is taken out first. */
  lemma {:induction false} SetSumRemove<T>(s: set<T>, y: T, f: T -> int)
    requires y in s
    ensures SetSum(s, f) == f(y) + SetSum(s - {y}, f)
    decreases |s|
  {
    var x :| x in s && SetSum(s, f) == f(x) + SetSum(s - {x}, f);
    if x != y {
      SetSumRemove(s - {x}, y, f);
      SetSumRemove(s - {y}, x, f);
      assert s - {x} - {y} == s - {y} - {x};
    }
  }

  lemma {:induction false} SetSumUnion<T>(a: set<T>, b: set<T>, f: T -> int)
    requires a !! b
    ensures SetSum(a + b, f) == SetSum(a, f) + SetSum(b, f)
    decreases |a|
  {
    if a != {} {
      var x :| x in a;
      SetSumRemove(a + b, x, f);
      SetSumRemove(a, x, f);
      assert (a + b) - {x} == (a - {x}) + b;
      SetSumUnion(a - {x}, b, f);
    } else {
      assert a + b == b;
    }
  }

  lemma {:induction false} SetSumCongruent<T>(s: set<T>, f: T -> int, g: T -> int)
    requires forall x :: x in s ==> f(x) == g(x)
    ensures SetSum(s, f) == SetSum(s, g)
    decreases |s|
  {
    if s != {} {
      var x :| x in s;
      SetSumRemove(s, x, f);
      SetSumRemove(s, x, g);
      SetSumCongruent(s - {x}, f, g);
    }
  }
}

=== FILE: taxonomy.dfy ===
/** The classification tree and its reconstruction from the outline
    (analyse.py, `TreeNode` and `parse_phylo_tree`). Nodes live in one
    sequence in creation order; a parent is the index of an earlier node, so
    the parent link is a plain back-reference and `children` of a node are
    the later nodes naming it as parent, in index order (the order
    `add_child` appends them). */
module Taxonomy {
  import opened Wrappers
  import opened Outline

  datatype Node = Node(name: string, depth: nat, parent: Option<nat>)

  /** `registry` is the name-to-node table the source keeps in the global
      `SCIENTIFIC`: a later node with the same name replaces the earlier
      entry. */
  datatype Tree = Tree(nodes: seq<Node>, registry: map<string, nat>, root: Option<nat>)

  /** Every parent link points to an earlier node, so following parents
      always ends. */
  predicate Wf(t: Tree)
  {
    forall i :: 0 <= i < |t.nodes| && t.nodes[i].parent.Some? ==> t.nodes[i].parent.value < i
  }

  /** `x` lies on the parent chain that starts at `a` (`a` included). */
  predicate IsAncestor(t: Tree, x: nat, a: nat)
    requires Wf(t) && a < |t.nodes|
    decreases a
  {
    x == a || (t.nodes[a].parent.Some? && IsAncestor(t, x, t.nodes[a].parent.value))
  }

  /** An ancestor is never a later node than its descendant. */
  lemma {:induction false} AncestorIsEarlier(t: Tree, x: nat, a: nat)
    requires Wf(t) && a < |t.nodes| && IsAncestor(t, x, a)
    ensures x <= a
    decreases a
  {
    if x != a {
      AncestorIsEarlier(t, x, t.nodes[a].parent.value);
    }
  }

  lemma {:induction false} AncestorTransitive(t: Tree, x: nat, y: nat, z: nat)
    requires Wf(t) && y < |t.nodes| && z < |t.nodes|
    requires IsAncestor(t, x, y) && IsAncestor(t, y, z)
    ensures IsAncestor(t, x, z)
    decreases z
  {
    if y != z {
      AncestorTransitive(t, x, y, t.nodes[z].parent.value);
    }
  }

  /** A proper ancestor `x` of `a` has a child on the path down to `a`. */
  lemma {:induction false} AncestorChildOnPath(t: Tree, x: nat, a: nat)
    requires Wf(t) && a < |t.nodes| && IsAncestor(t, x, a) && x != a
    ensures exists c :: 0 <= c < |t.nodes| && t.nodes[c].parent == Some(x) && IsAncestor(t, c, a)
    decreases a
  {
    var p := t.nodes[a].parent.value;
    if x != p {
      AncestorChildOnPath(t, x, p);
      var c :| 0 <= c < |t.nodes| && t.nodes[c].parent == Some(x) && IsAncestor(t, c, p);
      assert IsAncestor(t, c, a);
    }
  }

  /** Every node other than node 0 hangs under some parent. */
  predicate Connected(t: Tree)
  {
    && Wf(t)
    && |t.nodes| > 0
    && forall i :: 0 < i < |t.nodes| ==> t.nodes[i].parent.Some?
  }

  /** In a connected tree node 0 is an ancestor of every node. */
  lemma {:induction false} RootAncestorOfAll(t: Tree, a: nat)
    requires Connected(t) && a < |t.nodes|
    ensures IsAncestor(t, 0, a)
    decreases a
  {
    if a != 0 {
      RootAncestorOfAll(t, t.nodes[a].parent.value);
    }
  }

  /** How the outline attaches node `i`: to the latest earlier node that is
      shallower than it, or to nothing when every earlier node is at least
      as deep. */
  predicate ParentIsLatestShallower(nodes: seq<Node>, i: nat)
    requires i < |nodes|
  {
    match nodes[i].parent
    case Some(j) =>
      && j < i
      && nodes[j].depth < nodes[i].depth
      && forall m :: j < m < i ==> nodes[m].depth >= nodes[i].depth
    case None =>
      forall m :: 0 <= m < i ==> nodes[m].depth >= nodes[i].depth
  }

  /** A line that creates a node: not blank, and with a non-empty name. */
  predicate MakesNode(line: string)
  {
    Strip(line) != [] && CalculateDepth(line).1 != []
  }

  /** `(depth, name)` of every line that creates a node, in outline order. */
  function Parsed(lines: seq<string>): seq<(nat, string)>
  {
    if lines == [] then []
    else
      var last := lines[|lines| - 1];
      Parsed(lines[..|lines| - 1]) + (if MakesNode(last) then [CalculateDepth(last)] else [])
  }

  /** The parser's state: the nodes so far, the name registry, the frontier
      `stack` (depth to the most recent node at that depth) and the root. */
  datatype Parser = Parser(nodes: seq<Node>, registry: map<string, nat>, stack: map<nat, nat>, root: Option<nat>)

  /** The deepest frontier depth at or below `d`, scanning `d`, `d - 1`, ... `0`. */
  function NearestKey(stack: map<nat, nat>, d: int): (r: Option<nat>)
    ensures r.Some? ==> r.value <= d && r.value in stack
                        && forall k: nat :: r.value < k <= d ==> k !in stack
    ensures r.None? ==> forall k: nat :: k <= d ==> k !in stack
    decreases d + 1
  {
    if d < 0 then None
    else if d as nat in stack then Some(d as nat)
    else NearestKey(stack, d - 1)
  }

  /** Creates the node for a line that has a name: the first one becomes
      the root, every later one is attached under the deepest frontier entry
      shallower than it (if any); then the frontier keeps only the shallower
      entries and records the new node at its depth. */
  function Attach(p: Parser, depth: nat, name: string): (r: Parser)
    // one node is appended with the line's name and depth; earlier nodes
    // stay as they were
    ensures |r.nodes| == |p.nodes| + 1 && r.nodes[..|p.nodes|] == p.nodes
    ensures r.nodes[|p.nodes|].name == name && r.nodes[|p.nodes|].depth == depth
  {
    var k := |p.nodes|;
    var registry := p.registry[name := k];
    if p.root.None? then
      Parser(p.nodes + [Node(name, depth, None)], registry, p.stack[depth := k], Some(k))
    else
      var parent := match NearestKey(p.stack, depth - 1)
                    case None => None
                    case Some(pd) => Some(p.stack[pd]);
      var kept := map d | d in p.stack && d < depth :: p.stack[d];
      Parser(p.nodes + [Node(name, depth, parent)], registry, kept[depth := k], p.root)
  }

  /** One iteration of the parsing loop. */
  function Step(p: Parser, line: string): Parser
  {
    if Strip(line) == [] then p
    else
      var (depth, name) := CalculateDepth(line);
      if name == [] then p else Attach(p, depth, name)
  }

  /** The parsing loop over all lines, in order. */
  function Run(lines: seq<string>): Parser
  {
    if lines == [] then Parser([], map[], map[], None)
    else Step(Run(lines[..|lines| - 1]), lines[|lines| - 1])
  }

  /** The registry maps every name to the last node carrying it. */
  predicate RegistryIsLastByName(nodes: seq<Node>, registry: map<string, nat>)
  {
    && (forall nm :: nm in registry ==> registry[nm] < |nodes| && nodes[registry[nm]].name == nm)
    && (forall i :: 0 <= i < |nodes| ==> nodes[i].name in registry && i <= registry[nodes[i].name])
  }

  /** Each frontier entry is a node at the entry's depth. */
  predicate FrontierDepths(nodes: seq<Node>, stack: map<nat, nat>)
  {
    forall d :: d in stack ==> stack[d] < |nodes| && nodes[stack[d]].depth == d
  }

  /** Deeper frontier entries are more recent nodes. */
  predicate FrontierOrdered(stack: map<nat, nat>)
  {
    forall d1, d2 :: d1 in stack && d2 in stack && d1 < d2 ==> stack[d1] < stack[d2]
  }

  /** Node `m` is covered by a frontier entry no deeper and no older than it. */
  predicate Covered(nodes: seq<Node>, stack: map<nat, nat>, m: nat)
    requires m < |nodes|
  {
    exists e :: e in stack && e <= nodes[m].depth && m <= stack[e]
  }

  predicate FrontierCovers(nodes: seq<Node>, stack: map<nat, nat>)
  {
    forall m :: 0 <= m < |nodes| ==> Covered(nodes, stack, m)
  }

  predicate Frontier(nodes: seq<Node>, stack: map<nat, nat>)
  {
    FrontierDepths(nodes, stack) && FrontierOrdered(stack) && FrontierCovers(nodes, stack)
  }

  predicate ParentsOk(nodes: seq<Node>)
  {
    forall i :: 0 <= i < |nodes| ==> ParentIsLatestShallower(nodes, i)
  }

  predicate RootOk(p: Parser)
  {
    && (p.root.None? <==> p.nodes == [])
    && (p.root.Some? ==> p.root.value == 0 && p.nodes[0].parent.None?)
  }

  /** What the parsing loop maintains. */
  predicate Inv(p: Parser)
  {
    && RootOk(p)
    && RegistryIsLastByName(p.nodes, p.registry)
    && ParentsOk(p.nodes)
    && Frontier(p.nodes, p.stack)
  }

  /** The frontier entry the parser attaches a new node to is the latest
      node shallower than the new one. */
  lemma {:induction false} NewParent(nodes: seq<Node>, stack: map<nat, nat>, depth: nat)
    requires Frontier(nodes, stack)
    ensures match NearestKey(stack, depth - 1)
            case None => forall m :: 0 <= m < |nodes| ==> nodes[m].depth >= depth
            case Some(pd) =>
              && stack[pd] < |nodes|
              && nodes[stack[pd]].depth < depth
              && forall m :: stack[pd] < m < |nodes| ==> nodes[m].depth >= depth
  {
    match NearestKey(stack, depth - 1)
    case None =>
      forall m | 0 <= m < |nodes|
        ensures nodes[m].depth >= depth
      {
        assert Covered(nodes, stack, m);
      }
    case Some(pd) =>
      var j := stack[pd];
      forall m | j < m < |nodes|
        ensures nodes[m].depth >= depth
      {
        assert Covered(nodes, stack, m);
      }
  }

  lemma {:induction false} AttachFrontier(p: Parser, depth: nat, name: string)
    requires Inv(p)
    ensures Frontier(Attach(p, depth, name).nodes, Attach(p, depth, name).stack)
  {
    var q := Attach(p, depth, name);
    assert FrontierDepths(q.nodes, q.stack);
    assert FrontierOrdered(q.stack);
    AttachCovers(p, depth, name);
  }

  /** After attaching, every node is still covered by a frontier entry. */
  lemma {:induction false} AttachCovers(p: Parser, depth: nat, name: string)
    requires RootOk(p) && Frontier(p.nodes, p.stack)
    ensures FrontierCovers(Attach(p, depth, name).nodes, Attach(p, depth, name).stack)
  {
    var q := Attach(p, depth, name);
    forall m | 0 <= m < |q.nodes|
      ensures Covered(q.nodes, q.stack, m)
    {
      AttachCoversOne(p, depth, name, m);
    }
  }

  lemma {:induction false} AttachCoversOne(p: Parser, depth: nat, name: string, m: nat)
    requires RootOk(p) && Frontier(p.nodes, p.stack) && m <= |p.nodes|
    ensures m < |Attach(p, depth, name).nodes|
    ensures Covered(Attach(p, depth, name).nodes, Attach(p, depth, name).stack, m)
  {
    var q := Attach(p, depth, name);
    var k := |p.nodes|;
    assert q.nodes[k].depth == depth;
    assert depth in q.stack && q.stack[depth] == k;
    if m < k {
      assert q.nodes[m] == p.nodes[m];
      assert Covered(p.nodes, p.stack, m);
      var e :| e in p.stack && e <= p.nodes[m].depth && m <= p.stack[e];
      if e < depth {
        assert p.root.Some?;
        assert e in q.stack && q.stack[e] == p.stack[e];
      }
    }
  }

  lemma {:induction false} AttachParents(p: Parser, depth: nat, name: string)
    requires Inv(p)
    ensures ParentsOk(Attach(p, depth, name).nodes)
  {
    var q := Attach(p, depth, name);
    var k := |p.nodes|;
    if p.root.Some? {
      NewParent(p.nodes, p.stack, depth);
    }
    forall i | 0 <= i < |q.nodes|
      ensures ParentIsLatestShallower(q.nodes, i)
    {
      if i < k {
        assert ParentIsLatestShallower(p.nodes, i);
        assert q.nodes[..k] == p.nodes;
      }
    }
  }

  /** Creating a node keeps the invariant; the node is appended with the
      line's depth and name, and afterwards the frontier ends at the node's
      depth and holds the node there. */
  lemma {:induction false} AttachInv(p: Parser, depth: nat, name: string)
    requires Inv(p)
    ensures Inv(Attach(p, depth, name))
    ensures var q := Attach(p, depth, name);
            && |q.nodes| == |p.nodes| + 1
            && q.nodes[..|p.nodes|] == p.nodes
            && q.nodes[|p.nodes|].depth == depth
            && q.nodes[|p.nodes|].name == name
            && depth in q.stack && q.stack[depth] == |p.nodes|
            && forall d :: d in q.stack ==> d <= depth
  {
    AttachFrontier(p, depth, name);
    AttachParents(p, depth, name);
    var q := Attach(p, depth, name);
    assert q.nodes[..|p.nodes|] == p.nodes;
    if p.root.None? {
      assert p.stack == map[];
    }
  }

  lemma {:induction false} StepInv(p: Parser, line: string)
    requires Inv(p)
    ensures Inv(Step(p, line))
    ensures !MakesNode(line) ==> Step(p, line) == p
    ensures MakesNode(line) ==> Step(p, line) == Attach(p, CalculateDepth(line).0, CalculateDepth(line).1)
  {
    if MakesNode(line) {
      AttachInv(p, CalculateDepth(line).0, CalculateDepth(line).1);
    }
  }

  lemma {:induction false} RunInv(lines: seq<string>)
    ensures Inv(Run(lines))
    ensures |Run(lines).nodes| == |Parsed(lines)|
    ensures forall i :: 0 <= i < |Parsed(lines)| ==>
              (Run(lines).nodes[i].depth, Run(lines).nodes[i].name) == Parsed(lines)[i]
  {
    if lines != [] {
      var prefix := lines[..|lines| - 1];
      var last := lines[|lines| - 1];
      RunInv(prefix);
      StepInv(Run(prefix), last);
      if MakesNode(last) {
        AttachInv(Run(prefix), CalculateDepth(last).0, CalculateDepth(last).1);
        var q := Run(lines);
        forall i | 0 <= i < |Parsed(lines)|
          ensures (q.nodes[i].depth, q.nodes[i].name) == Parsed(lines)[i]
        {
          if i < |Parsed(prefix)| {
            assert q.nodes[i] == Run(prefix).nodes[i];
          }
        }
      }
    }
  }

  /** `parse_phylo_tree` on the lines of the outline file. */
  function ParsePhyloTree(lines: seq<string>): (t: Tree)
    // blank lines and lines without a name create no node; the others create
    // one node each, in order, with the line's depth and name
    ensures |t.nodes| == |Parsed(lines)|
    ensures forall i :: 0 <= i < |t.nodes| ==> (t.nodes[i].depth, t.nodes[i].name) == Parsed(lines)[i]
    // the first node created is the root, whatever its depth
    ensures t.root == (if t.nodes == [] then None else Some(0))
    ensures t.nodes != [] ==> t.nodes[0].parent == None
    // every other node hangs under the latest shallower node, or nowhere
    ensures forall i :: 0 <= i < |t.nodes| ==> ParentIsLatestShallower(t.nodes, i)
    ensures Wf(t)
    // duplicate names: the registry keeps the last node of each name
    ensures RegistryIsLastByName(t.nodes, t.registry)
  {
    RunInv(lines);
    var p := Run(lines);
    assert RootOk(p);
    assert ParentsOk(p.nodes);
    forall i | 0 <= i < |p.nodes| && p.nodes[i].parent.Some?
      ensures p.nodes[i].parent.value < i
    {
      assert ParentIsLatestShallower(p.nodes, i);
    }
    Tree(p.nodes, p.registry, p.root)
  }
}

=== FILE: wrappers.dfy ===
/** An optional value, and a result that is a value or an error. */
module Wrappers {

  datatype Option<+T> = None | Some(value: T) {
    /** The wrapped value, or `default` when there is none. */
    function GetOr(default: T): T {
      match this
      case Some(v) => v
      case None => default
    }
  }

  datatype Result<+R, +E> = Success(value: R) | Failure(error: E)
}
